=== FILE: README.md ===
# Tracker: a Dafny model of the habit tracker's domain logic

This project models the core of an iOS habit-tracker app in Dafny and proves properties of the model.
A *tracker* is a habit with a name, a colour, an emoji and a weekly schedule. A schedule is a list
of weekday indices, 0 = Monday … 6 = Sunday. Trackers are grouped into titled *categories*. The
model covers six areas:

- **Tracker model** (`tracker_model.dfy`, module `TrackerModel`) covers the `Tracker` record,
  `getDays`, and `daysUntilNextScheduledDay`.
  - `getDays` turns schedule indices into Russian weekday names and drops indices outside the week.
  - `daysUntilNextScheduledDay` counts the days to the next scheduled weekday.
- **Draft builder** (`temp_storage.dfy`, module `TempStorage`) is the `TempStorage` singleton's
  partially filled tracker.
  - It has six setters, two getters, `buildTracker` and `resetTempTracker`.
  - The singleton's state is an explicit value, and a call of a setter is an `Edit`.
- **Trackers screen** (`trackers_view.dfy`, module `TrackersView`) is the state of
  `TrackersViewController`.
  - The state is the categories, the visible categories, the completion ledger and the current date.
  - Its operations are the date filter, the prefix search, and adding and removing completion records.
- **Tracker cell** (`tracker_cell.dfy`, module `TrackerCell`) covers three things:
  - the Russian counter label `dayToString`, including Swift's truncating `%`;
  - the check-button tap;
  - the refresh of the button's selection from the ledger.
- **Store** (`tracker_store.dfy`, module `TrackerStore`) covers the stored tracker object and the
  change notifications.
  - Decoding the stored object into a `Tracker` (`makeTracker`), with one error per missing field,
    checked in order.
  - Encoding a tracker into the object (`updateTracker`, `addNewTracker`).
  - Grouping decoded trackers by category title (`makeCategory`), and the `trackers` and `isEmpty`
    accessors.
  - The fetched-results delegate, which collects inserted, deleted, updated and moved rows into one
    `TrackerStoreUpdate`.
- **Shared pieces** (`common.dfy`, `ascii_text.dfy`) hold `Option`, identifiers, the calendar
  interface, an order-preserving `Filter` with its subsequence theory, and an ASCII lower-casing
  used for concrete search examples.

The platform's services enter as parameters.
- A `Calendar` value supplies the day number of an instant, which decides "same day", and the
  weekday name the app's date formatter prints for it.
- The search's lower-casing is a `lower: string -> string` parameter.
- The current time `now` is a parameter.
- `Result` and `Option` model Swift's `throws` and optionals. `None` also stands for a
  `fatalError` or a failed force-unwrap in the change accumulator.

Every operation is a pure function of the state it reads. Reading, for example `buildTracker`,
therefore never changes the draft, and asking twice gives the same answer.

Some behaviour of the code is easy to miss:
- `addCompletedTracker` appends a record without checking for an existing one
  (TrackersViewController.swift:172-175). The ledger can therefore hold the same record twice,
  and `removeCompletedTracker` then removes every copy.
- `daysUntilNextScheduledDay` takes the *first* schedule entry at or after today in list order,
  not the smallest one. For the unsorted schedule `[5, 2]` on day 2 it answers 3
  (`UnsortedScheduleTakesFirstEntry`). For sorted in-week schedules, repeated days allowed, it
  is proved to be the least offset (`DaysUntilIsLeastOffset`).
- The search keeps every tracker for an empty query, because an empty prefix matches every name
  (`EmptyQueryKeepsAllTrackers`).
- Only the cell's selection refresh queries the ledger to decide what to show; the counter is
  never derived from it.

The Swift file declaring `TrackerRecord` is not part of this model. The Dafny `TrackerRecord`
takes its two fields, `recordID` and `date`, from how the screen builds and filters records
(TrackersViewController.swift:172-179).

## Model

| member | source | states |
|---|---|---|
| TrackerModel.GetDays | Tracker/Models/TrackerModel.swift:17-29 | at most one name per schedule entry; every name is one of the seven weekday names; no entry is dropped exactly when all entries lie in 0..6 |
| TrackerModel.DayNamesIsLookupOfInRange | Tracker/Models/TrackerModel.swift:22-26 | the names are the lookup-table entries of the in-range indices, kept in schedule order |
| TrackerModel.DayNamedIffScheduled | Tracker/Models/TrackerModel.swift:17-29 | weekday d's name is among the names exactly when d is in the schedule |
| TrackerModel.ScheduledIndexNamed | Tracker/Models/TrackerModel.swift:22-26 | every in-range schedule entry contributes its weekday's name |
| TrackerModel.WeekdayNamesDistinct | Tracker/Models/TrackerModel.swift:19 | the seven weekday names are pairwise different, so a name identifies its weekday |
| TrackerModel.FirstAtLeast | Tracker/Models/TrackerModel.swift:32 | `first(where:)`: the first index whose entry reaches the bound, with every earlier entry below it; none exactly when all entries are below |
| TrackerModel.DaysUntilNextScheduledDay | Tracker/Models/TrackerModel.swift:31-40 | -1 for an empty schedule; the first entry at or after today minus today when one exists; otherwise the first entry minus today plus 7 |
| TrackerModel.DaysUntilInWeek | Tracker/Models/TrackerModel.swift:31-40 | for an in-week schedule and day, the answer is -1 or lies in 0..6, and -1 only for an empty schedule |
| TrackerModel.DaysUntilIsLeastOffset | Tracker/Models/TrackerModel.swift:31-40 | for a sorted in-week schedule, repeated days allowed, the answer is the least d such that the weekday d days ahead is scheduled |
| TrackerModel.LeastOffsetSameWeek | Tracker/Models/TrackerModel.swift:32-36 | for a sorted in-week schedule, repeated days allowed, and an in-week today: when an entry lies at or after today, the days between today and that entry are not scheduled |
| TrackerModel.LeastOffsetNextWeek | Tracker/Models/TrackerModel.swift:32-35 | for a sorted in-week schedule, repeated days allowed, and an in-week today: when the schedule is non-empty and every entry lies before today, no day until the first entry next week is scheduled |
| TrackerModel.DaysUntilZeroIffScheduled | Tracker/Models/TrackerModel.swift:31-40 | for a sorted in-week schedule, repeated days allowed, the answer is 0 exactly when today is scheduled |
| TrackerModel.UnsortedScheduleTakesFirstEntry | Tracker/Models/TrackerModel.swift:32 | schedule [5, 2] on day 2 gives 3, not 0: the first qualifying entry wins, not the smallest |
| TrackerModel.OutOfWeekEntryMimicsEmpty | Tracker/Models/TrackerModel.swift:31-40 | the non-empty schedule [-8] on day 0 returns the "never" value -1 |
| TempStorage.Apply | Tracker/Helpers/TempStorage.swift:29-51 | a setter changes exactly its own field, to the argument |
| TempStorage.BuildTracker | Tracker/Helpers/TempStorage.swift:64-74 | nil exactly when some field is missing; otherwise the tracker carries the draft's five values |
| TempStorage.SettersKeepComplete | Tracker/Helpers/TempStorage.swift:21-51 | once `isComplete` holds, every further setter call keeps it |
| TempStorage.GetSchedule | Tracker/Helpers/TempStorage.swift:53-56 | when the draft builds a tracker, `getShedule` answers that tracker's schedule |
| TempStorage.GetCategory | Tracker/Helpers/TempStorage.swift:58-62 | a draft whose `getCategory` answers nil builds nothing |
| TempStorage.ResetTempTracker | Tracker/Helpers/TempStorage.swift:76-78 | after a reset nothing can be built and both getters answer nil |
| TempStorage.ApplyAllSnoc | Tracker/Helpers/TempStorage.swift:29-51 | a run of setter calls followed by one more is the run extended by that call |
| TempStorage.GettersReturnLastSet | Tracker/Helpers/TempStorage.swift:53-62 | from a fresh draft, `getShedule` and `getCategory` answer the argument of the last matching setter call, or nil |
| TempStorage.FilledAfterEdits | Tracker/Helpers/TempStorage.swift:29-51 | after a run of setter calls, a field is set exactly when it was set before or some call set it |
| TempStorage.CompleteIffAllFieldsSet | Tracker/Helpers/TempStorage.swift:21-23 | from a fresh draft, `isComplete` holds exactly when all six setters have been called |
| TempStorage.BuildAfterSettingAllFields | Tracker/Helpers/TempStorage.swift:64-74 | setting the six fields from a tracker builds that same tracker |
| TempStorage.ResetForgetsEarlierEdits | Tracker/Helpers/TempStorage.swift:76-78 | after a reset, calls that skip some setter build nothing, whatever was set before |
| Common.Filter | Tracker/Presentation/Trackers/TrackersViewController.swift:160-162 | `filter`: an order-preserving subsequence of the input, holding every copy of each accepted element and no other element, unchanged when all are accepted |
| Common.FilterMembers | Tracker/Presentation/Trackers/TrackersViewController.swift:188-190 | an element is kept exactly when present and accepted |
| Common.FilterConcat | Tracker/Presentation/Trackers/TrackersViewController.swift:187-193 | filtering category by category equals filtering the concatenation |
| Common.FilterCongruent | Tracker/Presentation/Trackers/TrackersViewController.swift:160-162 | two tests that agree on the elements give the same result |
| Common.SubsequenceMembers | Tracker/Presentation/Trackers/TrackersViewController.swift:178 | a subsequence holds no element the original lacks |
| TrackersView.FilterCategories | Tracker/Presentation/Trackers/TrackersViewController.swift:187-193 | no category left empty, no more categories than before, and the trackers in reading order are exactly the accepted ones in their old order |
| TrackersView.TrimAll | Tracker/Presentation/Trackers/TrackersViewController.swift:188-192 | each category keeps its title and exactly its accepted trackers |
| TrackersView.FilterCategoriesTrimsInOrder | Tracker/Presentation/Trackers/TrackersViewController.swift:187-193 | the result is the trimmed categories with some dropped, order kept |
| TrackersView.FilterCategoriesDropsOnlyEmpty | Tracker/Presentation/Trackers/TrackersViewController.swift:192 | no category is dropped exactly when every category keeps a tracker |
| TrackersView.FilterCategoriesListing | Tracker/Presentation/Trackers/TrackersViewController.swift:187-193 | a tracker is listed under a title afterwards exactly when it was listed there before and is accepted |
| TrackersView.FilterCategoriesCongruent | Tracker/Presentation/Trackers/TrackersViewController.swift:159-164 | equivalent tests give the same categories |
| TrackersView.TrackersScheduledOn | Tracker/Presentation/Trackers/TrackersViewController.swift:184-195 | no category is left empty, and a tracker is shown exactly when it is categorised and the day's name is among its scheduled day names |
| TrackersView.TrackersMatching | Tracker/Presentation/Trackers/TrackersViewController.swift:159-164 | no category is left empty, and a tracker is shown exactly when it is categorised and its lower-cased name starts with the lower-cased query |
| TrackersView.ScheduledOnWeekday | Tracker/Presentation/Trackers/TrackersViewController.swift:184-195 | on weekday d, the visible trackers are exactly those whose schedule contains d, in order |
| TrackersView.SearchIgnoresQueryCase | Tracker/Presentation/Trackers/TrackersViewController.swift:158-161 | with an idempotent lower-casing, a query and its lower-cased form find the same trackers |
| TrackersView.EmptyQueryKeepsAllTrackers | Tracker/Presentation/Trackers/TrackersViewController.swift:158-164 | the empty query keeps every tracker |
| TrackersView.SearchExample | Tracker/Presentation/Trackers/TrackersViewController.swift:157-167 | "mo" finds "Morning Run" and "morning walk" and drops the category holding only "Gym" |
| TrackersView.TwoCategoriesOneMatching | Tracker/Presentation/Trackers/TrackersViewController.swift:159-164 | a category whose only tracker fails the test disappears; the other keeps both trackers |
| TrackersView.SetCategories | Tracker/Presentation/Trackers/TrackersViewController.swift:57-62 | assigning the categories shows all of them and keeps the ledger and the date |
| TrackersView.SetCurrentDate | Tracker/Presentation/Trackers/TrackersViewController.swift:70-74 | after a date change, the visible trackers are exactly the categorised trackers scheduled on that weekday, with no empty category |
| TrackersView.UpdateSearchResults | Tracker/Presentation/Trackers/TrackersViewController.swift:157-167 | nil search text changes nothing; otherwise the visible trackers are those whose lower-cased name starts with the lower-cased text |
| TrackersView.AddCompletedTracker | Tracker/Presentation/Trackers/TrackersViewController.swift:172-175 | the ledger grows by exactly one record, for this tracker on the current date, after the old records |
| TrackersView.RemoveCompletedTracker | Tracker/Presentation/Trackers/TrackersViewController.swift:177-179 | no record of this tracker on the current day remains; every other record keeps all its copies, in order; a no-op when nothing matches |
| TrackersView.AddThenRemove | Tracker/Presentation/Trackers/TrackersViewController.swift:172-179 | marking then unmarking on the same date leaves no record of that tracker on that day; a ledger that held none before comes back unchanged |
| TrackersView.VisibleTrackersAreCategorised | Tracker/Presentation/Trackers/TrackersViewController.swift:57-63 | while the visible trackers are drawn from the full list, the screen shows no tracker the full list lacks |
| TrackersView.OperationsKeepVisibleDrawn | Tracker/Presentation/Trackers/TrackersViewController.swift:57-195 | every screen operation keeps the visible trackers drawn from the categories |
| AsciiText.AsciiLower | Tracker/Presentation/Trackers/TrackersViewController.swift:158 | lower-casing keeps the length and maps each character through the ASCII case table |
| AsciiText.AsciiLowerIdempotent | Tracker/Presentation/Trackers/TrackersViewController.swift:158-161 | lower-casing twice is lower-casing once |
| AsciiText.StartsWithMo | Tracker/Presentation/Trackers/TrackersViewController.swift:161 | a name beginning with "Mo" or "mo" lowers to one with the prefix "mo" |
| AsciiText.NotStartingWithM | Tracker/Presentation/Trackers/TrackersViewController.swift:161 | a name beginning with neither "M" nor "m" does not lower to one with the prefix "mo" |
| AsciiText.MorningRunLowered | Tracker/Presentation/Trackers/TrackersViewController.swift:161 | "mo" is a prefix of the lower-cased "Morning Run" |
| AsciiText.GymLowered | Tracker/Presentation/Trackers/TrackersViewController.swift:161 | "mo" is not a prefix of the lower-cased "Gym" |
| TrackerCell.SwiftRem | Tracker/Presentation/Trackers/TrackersCollectionViewCell.swift:148 | Swift's `%`: a remainder whose sign follows the dividend and whose size is below the divisor |
| TrackerCell.SwiftRemOfNatural | Tracker/Presentation/Trackers/TrackersCollectionViewCell.swift:148-155 | for non-negative numbers, Swift's `%` is the mathematical remainder |
| TrackerCell.Suffix | Tracker/Presentation/Trackers/TrackersCollectionViewCell.swift:146-159 | the suffix is one of the three plural forms, and "дней" for every negative count |
| TrackerCell.SuffixDen | Tracker/Presentation/Trackers/TrackersCollectionViewCell.swift:148-150 | the suffix is "день" exactly for non-negative numbers ending in 1 but not in 11 |
| TrackerCell.SuffixDnya | Tracker/Presentation/Trackers/TrackersCollectionViewCell.swift:151-156 | the suffix is "дня" exactly for non-negative numbers ending in 2-4 whose last two digits are not 12-14 |
| TrackerCell.SuffixDney | Tracker/Presentation/Trackers/TrackersCollectionViewCell.swift:157-158 | the suffix is "дней" for every other number, including every negative number |
| TrackerCell.SuffixPeriodic | Tracker/Presentation/Trackers/TrackersCollectionViewCell.swift:145-162 | for non-negative numbers the suffix depends only on the last two digits |
| TrackerCell.NatDecimalRoundTrip | Tracker/Presentation/Trackers/TrackersCollectionViewCell.swift:161 | the decimal digits printed for a natural number read back as that number |
| TrackerCell.ParseIntRoundTrip | Tracker/Presentation/Trackers/TrackersCollectionViewCell.swift:161 | the printed integer, sign included, reads back as the integer |
| TrackerCell.IntToDecimal | Tracker/Presentation/Trackers/TrackersCollectionViewCell.swift:161 | string interpolation prints a canonical numeral: digits without a leading zero, after a minus sign exactly for negative numbers |
| TrackerCell.CanonicalNumeralUnique | Tracker/Presentation/Trackers/TrackersCollectionViewCell.swift:161 | two canonical numerals that read as the same integer are the same string, so the printed numeral is the only canonical one for its value |
| TrackerCell.DayToString | Tracker/Presentation/Trackers/TrackersCollectionViewCell.swift:145-162 | the label is the canonical numeral of the count (minus sign exactly for negative counts, no leading zero, reads back as the count), one space, then the count's suffix |
| TrackerCell.DayToStringExamples | Tracker/Presentation/Trackers/TrackersCollectionViewCell.swift:145-162 | 2 takes "дня", 11 takes "дней", 21 takes "день" |
| TrackerCell.CheckButtonTapped | Tracker/Presentation/Trackers/TrackersCollectionViewCell.swift:174-195 | no tracker, or a shown date after now: nothing changes; otherwise the selection flips, the counter moves by one in the matching direction, and the screen is asked to remove when it was selected and to add when it was not |
| TrackerCell.TapTwiceRestores | Tracker/Presentation/Trackers/TrackersCollectionViewCell.swift:174-195 | two taps on the same date always restore the cell; with a tracker, a screen and a shown date not after now, the two ledger calls are one add and one remove |
| TrackerCell.IsThisDaySelected | Tracker/Presentation/Trackers/TrackersCollectionViewCell.swift:197-213 | as written: the button is selected exactly when the ledger holds any record on the shown day |
| TrackerCell.SelectionIgnoresTracker | Tracker/Presentation/Trackers/TrackersCollectionViewCell.swift:199-202 | a record of another tracker on the shown day selects this tracker's button |
| TrackerCell.IsThisDaySelectedForTracker | Tracker/Presentation/Trackers/TrackersCollectionViewCell.swift:197-213 | corrected: selected exactly when the ledger holds a record of this tracker on the shown day |
| TrackerCell.TapKeepsSelectionInSync | Tracker/Presentation/Trackers/TrackersCollectionViewCell.swift:174-213 | if the selection matched the ledger before a tap, it matches the updated ledger after it |
| TrackerStore.MakeTracker | Tracker/Helpers/Store/TrackerStore.swift:102-124 | each error is thrown exactly when the earlier fields are present and its own is missing; a schedule that is not an integer array is missing; success carries exactly the stored values |
| TrackerStore.UpdateTracker | Tracker/Helpers/Store/TrackerStore.swift:93-100 | the five fields hold the tracker's values and the category link is untouched |
| TrackerStore.AddNewTracker | Tracker/Helpers/Store/TrackerStore.swift:86-91 | the new object decodes to the tracker and has no category yet |
| TrackerStore.UpdateThenMakeRoundTrip | Tracker/Helpers/Store/TrackerStore.swift:93-124 | encoding a tracker into any object and decoding gives the tracker back |
| TrackerStore.MakeThenUpdateRoundTrip | Tracker/Helpers/Store/TrackerStore.swift:93-124 | writing back what an object decodes to leaves the object as it was |
| TrackerStore.AddToGroup | Tracker/Helpers/Store/TrackerStore.swift:132-138 | appends to the group of that title or opens a new one at the end; other groups unchanged; titles stay distinct |
| TrackerStore.AddToGroupTitles | Tracker/Helpers/Store/TrackerStore.swift:132-138 | the titles afterwards are the old titles plus the one added under |
| TrackerStore.MakeCategory | Tracker/Helpers/Store/TrackerStore.swift:126-150 | throws exactly when some object fails to decode, always with `decodingErrorInvalidCategory`; otherwise titles are distinct and no group is empty |
| TrackerStore.MakeCategoryGroupsByTitle | Tracker/Helpers/Store/TrackerStore.swift:126-150 | each group holds exactly the decoded trackers filed under its title, in input order |
| TrackerStore.EveryTitleHasGroup | Tracker/Helpers/Store/TrackerStore.swift:132-138 | every title some object carries has a group |
| TrackerStore.UntitledHasNoTrackers | Tracker/Helpers/Store/TrackerStore.swift:126-150 | a title without a group has no decoded tracker filed under it |
| TrackerStore.FileTracker | Tracker/Helpers/Store/TrackerStore.swift:131-139 | one loop round keeps titles distinct and groups non-empty |
| TrackerStore.FileTrackerGroup | Tracker/Helpers/Store/TrackerStore.swift:131-139 | an old group gains the object's tracker exactly when its title is the object's; a new group is the object's unseen title holding just its tracker |
| TrackerStore.Trackers | Tracker/Helpers/Store/TrackerStore.swift:79-84 | no trackers when nothing was fetched or any object fails to decode; otherwise `makeCategory`'s groups, so titles are distinct, no group is empty, each group holds exactly the trackers filed under its title, and every title an object carries has a group |
| TrackerStore.IsEmpty | Tracker/Helpers/Store/TrackerStore.swift:152-157 | a store that is empty shows no trackers |
| TrackerStore.UncategorisedStoreShowsNothing | Tracker/Helpers/Store/TrackerStore.swift:79-157 | a store holding only an uncategorised tracker is not empty yet shows no trackers |
| TrackerStore.WillChangeContent | Tracker/Helpers/Store/TrackerStore.swift:162-167 | a batch starts with four empty collections |
| TrackerStore.DidChange | Tracker/Helpers/Store/TrackerStore.swift:185-208 | traps exactly when the change lacks a row its type needs; otherwise adds to exactly the collection of its type, which is a no-op outside a batch |
| TrackerStore.DidChangeContent | Tracker/Helpers/Store/TrackerStore.swift:169-183 | with a delegate, hands it the four collections, trapping if a batch never started; without one, emits nothing; always ends idle |
| TrackerStore.CollectChanges | Tracker/Helpers/Store/TrackerStore.swift:185-208 | inside a batch, well-formed changes add exactly their rows to each collection |
| TrackerStore.BatchReportsItsChanges | Tracker/Helpers/Store/TrackerStore.swift:162-208 | a whole batch reports exactly the inserted, deleted, updated and moved rows of its changes and leaves the store idle |
| TrackerStore.IdleIgnoresChanges | Tracker/Helpers/Store/TrackerStore.swift:185-208 | outside a batch, well-formed changes leave the store idle |

## Left out

- The UI is not modelled: layout, colours, images, placeholders (`changePlaceholder`), navigation, and presenting the creation screens. These have no domain logic.
- CoreData is not modelled beyond the attributes the code reads. This covers contexts, `save`, the fetch request and its sort by name, and the `NSFetchedResultsController` object itself. Fetched objects are a parameter, in the order they arrive.
- `TrackersCollectionView`, `CategoryViewModel`, `CategoryTableView`, the habit-creation screen and the array-diff helper are outside the modelled core.
- The platform's `lowercased()` is a parameter. Only its idempotence and `lower("") == ""` are assumed, and only where a lemma says so. Concrete examples use ASCII lower-casing, because Unicode case mapping is not modelled.
- The calendar and the date formatter are uninterpreted. The model does not derive a weekday name from a date.
- TrackerCell.SwiftRem: only positive divisors are modelled, because the source only divides by 10 and 100.
- TrackerStore.MakeCategory: the group order is fixed as first appearance. The source returns its dictionary's iteration order, which is unspecified.
- TrackerCell.CheckButtonTapped: the cell's `completedDays` counter is modelled as the cell keeps it. The source never loads it from the ledger.
- Concurrency is not modelled: the store's delegate callbacks are taken one at a time.
- String comparison is by code point. Swift compares `String`s by whole characters under canonical equivalence, so the model differs for decomposed characters in `hasPrefix` (TrackersViewController.swift:161) and in the dictionary keys of `makeCategory` (TrackerStore.swift:133-137). For example, `"e\u{301}".hasPrefix("e")` is false in Swift and true in the model. A precomposed "é" title and a decomposed one form one group in Swift and two in the model.
- Integer overflow is not modelled: integers are unbounded, so the traps Swift raises at the ends of the 64-bit range are left out. This concerns `completedDays += 1` and `completedDays -= 1` (TrackersCollectionViewCell.swift:182, 190), `num - 1` and `num - num % 10` (:149-156), and `nextScheduledDay - currentDay` and `daysUntilNextDay + 7` (TrackerModel.swift:34-35).

## Findings

| source | as written | input that shows it | evidently intended | confidence | as-written member | corrected member |
|---|---|---|---|---|---|---|
| Tracker/Presentation/Trackers/TrackersCollectionViewCell.swift:199-202 | the selection refresh marks the button selected when the ledger holds a record of *any* tracker on the shown day | a ledger holding only a record of tracker 2 on today's date; refreshing tracker 1's cell selects it | the refresh should match the record's `recordID` against the cell's tracker, as `removeCompletedTracker` does | high (not executed) | TrackerCell.IsThisDaySelected, TrackerCell.SelectionIgnoresTracker | TrackerCell.IsThisDaySelectedForTracker, TrackerCell.TapKeepsSelectionInSync |

=== FILE: ascii_text.dfy ===
/** A concrete lowercasing for ASCII letters, standing in for the platform's `lowercased()` where
    a concrete example of case-insensitive matching is wanted. */
module AsciiText {

  /** Lowercasing of ASCII letters; a stand-in for the platform's `lowercased()` that is enough to
      show case-insensitive matching on concrete names. */
  function AsciiLower(s: string): (r: string)
    ensures |r| == |s|
    ensures forall i :: 0 <= i < |s| ==> r[i] == LowerChar(s[i])
  {
    if |s| == 0 then ""
    else
      assert forall i :: 0 < i < |s| ==> s[i] == s[1..][i - 1];
      [LowerChar(s[0])] + AsciiLower(s[1..])
  }

  /** One character of `AsciiLower`. */
  function LowerChar(c: char): char {
    if 'A' <= c <= 'Z' then (c as int - 'A' as int + 'a' as int) as char else c
  }

  /** `AsciiLower` is idempotent, so the search with it ignores the case of the query. */
  lemma AsciiLowerIdempotent(s: string)
    ensures AsciiLower(AsciiLower(s)) == AsciiLower(s)
  {
  }

  /** "Morning Run" lowers to a name starting with "mo". */
  lemma MorningRunLowered()
    ensures "mo" <= AsciiLower("Morning Run")
  {
    StartsWithMo("Morning Run");
  }

  /** "morning walk" lowers to a name starting with "mo". */
  lemma MorningWalkLowered()
    ensures "mo" <= AsciiLower("morning walk")
  {
    StartsWithMo("morning walk");
  }

  /** "Gym" does not lower to anything starting with "mo". */
  lemma GymLowered()
    ensures !("mo" <= AsciiLower("Gym"))
  {
    NotStartingWithM("Gym");
  }

  /** Names not beginning with "M" or "m" do not lower to anything beginning with "mo". */
  lemma NotStartingWithM(name: string)
    requires |name| > 0 && name[0] != 'M' && name[0] != 'm'
    ensures !("mo" <= AsciiLower(name))
  {
    var r := AsciiLower(name);
    assert r[0] == LowerChar(name[0]);
  }

  /** "mo" has no capitals to lower. */
  lemma MoLowersToItself()
    ensures AsciiLower("mo") == "mo"
  {
    var r := AsciiLower("mo");
    assert r[0] == LowerChar('m') && r[1] == LowerChar('o');
  }

  /** Names beginning with "Mo" or "mo" lower to something beginning with "mo". */
  lemma StartsWithMo(name: string)
    requires |name| >= 2 && (name[0] == 'M' || name[0] == 'm') && name[1] == 'o'
    ensures "mo" <= AsciiLower(name)
  {
    var r := AsciiLower(name);
    assert r[0] == LowerChar(name[0]) && r[1] == LowerChar(name[1]);
    assert r[..2] == "mo";
  }
}

=== FILE: common.dfy ===
/** Shared vocabulary of the tracker model: optional values, the platform's notion of time,
    opaque identifiers, and order-preserving filtering of sequences. */
module Common {

  /** Swift's `Optional`. */
  datatype Option<T> = None | Some(value: T)

  /** A point in time as the platform clock reports it (Swift's `Date`). Only its order and the
      calendar day it falls on matter to the trackers. */
  type Instant = int

  /** A tracker identifier (Swift's `UUID`); the model only ever compares identifiers. */
  datatype Uuid = Uuid(raw: nat)

  /** The platform's calendar services, left uninterpreted:
      `dayOf` numbers the calendar day an instant falls on (so `isDate(_:inSameDayAs:)` is equality
      of day numbers), and `weekdayName` is the weekday name the app's date formatter prints. */
  datatype Calendar = Calendar(dayOf: Instant -> int, weekdayName: Instant -> string)

  /** `Calendar.current.isDate(a, inSameDayAs: b)`. */
  predicate SameDay(cal: Calendar, a: Instant, b: Instant) {
    cal.dayOf(a) == cal.dayOf(b)
  }

  /** The elements of `s` that satisfy `keep`, in their original order (Swift's `filter`). */
  function Filter<T(!new)>(s: seq<T>, keep: T -> bool): (r: seq<T>)
    ensures |r| <= |s|
    ensures forall i :: 0 <= i < |r| ==> keep(r[i])
    ensures IsSubsequence(r, s)
    ensures |r| == |s| <==> forall i :: 0 <= i < |s| ==> keep(s[i])
    ensures (forall i :: 0 <= i < |s| ==> keep(s[i])) ==> r == s
    ensures KeepsAcceptedCopies(s, r, keep)
  {
    if |s| == 0 then []
    else
      var rest := Filter(s[1..], keep);
      assert forall i :: 0 < i < |s| ==> s[i] == s[1..][i - 1];
      var r := if keep(s[0]) then [s[0]] + rest else rest;
      assert KeepsAcceptedCopies(s, r, keep) by {
        KeepsAcceptedCopiesStep(s, rest, keep);
      }
      r
  }

  /** The number of copies of `x` in `s`. */
  ghost function Count<T>(s: seq<T>, x: T): nat {
    if |s| == 0 then 0 else (if s[0] == x then 1 else 0) + Count(s[1..], x)
  }

  /** `r` holds every copy of each accepted element of `s` and nothing else. */
  ghost predicate KeepsAcceptedCopies<T(!new)>(s: seq<T>, r: seq<T>, keep: T -> bool) {
    forall x :: Count(r, x) == if keep(x) then Count(s, x) else 0
  }

  /** The copies kept by one step of `Filter`: the head, when accepted, before the rest's. */
  lemma KeepsAcceptedCopiesStep<T(!new)>(s: seq<T>, rest: seq<T>, keep: T -> bool)
    requires |s| > 0 && KeepsAcceptedCopies(s[1..], rest, keep)
    ensures KeepsAcceptedCopies(s, if keep(s[0]) then [s[0]] + rest else rest, keep)
  {
    assert forall x :: Count([s[0]] + rest, x) == (if s[0] == x then 1 else 0) + Count(rest, x) by {
      assert ([s[0]] + rest)[1..] == rest;
    }
  }

  /** `a` can be obtained from `b` by deleting elements: same elements, same relative order. */
  ghost predicate IsSubsequence<T>(a: seq<T>, b: seq<T>)
    decreases |b|
  {
    |a| == 0 || (|b| > 0 && ((a[0] == b[0] && IsSubsequence(a[1..], b[1..])) || IsSubsequence(a, b[1..])))
  }

  /** Every sequence is a subsequence of itself. */
  lemma {:induction false} SubsequenceReflexive<T>(a: seq<T>)
    ensures IsSubsequence(a, a)
  {
    if |a| > 0 {
      SubsequenceReflexive(a[1..]);
    }
  }

  /** Every element of a subsequence occurs in the sequence it was taken from. */
  lemma {:induction false} SubsequenceMembers<T>(a: seq<T>, b: seq<T>)
    requires IsSubsequence(a, b)
    ensures forall x :: x in a ==> x in b
    decreases |b|
  {
    if |a| > 0 {
      if a[0] == b[0] && IsSubsequence(a[1..], b[1..]) {
        SubsequenceMembers(a[1..], b[1..]);
        assert forall x :: x in a ==> x == a[0] || x in a[1..];
      } else {
        SubsequenceMembers(a, b[1..]);
      }
    }
  }

  /** Membership in a filtered sequence: kept exactly when present and accepted. */
  lemma {:induction false} FilterMembers<T(!new)>(s: seq<T>, keep: T -> bool, x: T)
    ensures x in Filter(s, keep) <==> x in s && keep(x)
  {
    if |s| > 0 {
      FilterMembers(s[1..], keep, x);
      assert x in s <==> x == s[0] || x in s[1..];
    }
  }

  /** Filtering distributes over concatenation. */
  lemma {:induction false} FilterConcat<T(!new)>(a: seq<T>, b: seq<T>, keep: T -> bool)
    ensures Filter(a + b, keep) == Filter(a, keep) + Filter(b, keep)
  {
    if |a| == 0 {
      assert a + b == b;
    } else {
      assert (a + b)[0] == a[0];
      assert (a + b)[1..] == a[1..] + b;
      FilterConcat(a[1..], b, keep);
    }
  }

  /** Two filters that accept the same elements of `s` produce the same result. */
  lemma {:induction false} FilterCongruent<T(!new)>(s: seq<T>, p: T -> bool, q: T -> bool)
    requires forall i :: 0 <= i < |s| ==> (p(s[i]) <==> q(s[i]))
    ensures Filter(s, p) == Filter(s, q)
  {
    if |s| > 0 {
      assert forall i :: 0 < i < |s| ==> s[i] == s[1..][i - 1];
      FilterCongruent(s[1..], p, q);
    }
  }
}

=== FILE: temp_storage.dfy ===
/** The draft of a tracker being created across several screens (`TempStorage`): six optional
    fields filled in one at a time, turned into a `Tracker` once all of them are present. */
module TempStorage {
  import opened Common
  import opened TrackerModel

  /** `TempStorage.TempTracker`. */
  datatype TempTracker = TempTracker(
    id: Option<Uuid>,
    name: Option<string>,
    color: Option<string>,
    emoji: Option<string>,
    schedule: Option<seq<int>>,
    category: Option<string>)

  /** A draft with nothing filled in: the initial state, and the state after a reset. */
  const EmptyDraft: TempTracker := TempTracker(None, None, None, None, None, None)

  /** `TempTracker.isComplete`: every field, the category included, is filled in. */
  predicate IsComplete(draft: TempTracker) {
    draft.id.Some? && draft.name.Some? && draft.color.Some? && draft.emoji.Some? &&
    draft.schedule.Some? && draft.category.Some?
  }

  /** One call of a setter (`setID`, `setName`, `setColor`, `setEmoji`, `setSchedule`,
      `setCategory`) with its argument. */
  datatype Edit =
    | SetId(id: Uuid)
    | SetName(name: string)
    | SetColor(color: string)
    | SetEmoji(emoji: string)
    | SetSchedule(schedule: seq<int>)
    | SetCategory(category: string)

  /** Performs one setter call: its own field now holds the argument, the other five keep
      their values. */
  function Apply(draft: TempTracker, e: Edit): (r: TempTracker)
    ensures r.id == (if e.SetId? then Some(e.id) else draft.id)
    ensures r.name == (if e.SetName? then Some(e.name) else draft.name)
    ensures r.color == (if e.SetColor? then Some(e.color) else draft.color)
    ensures r.emoji == (if e.SetEmoji? then Some(e.emoji) else draft.emoji)
    ensures r.schedule == (if e.SetSchedule? then Some(e.schedule) else draft.schedule)
    ensures r.category == (if e.SetCategory? then Some(e.category) else draft.category)
  {
    match e
    case SetId(id) => draft.(id := Some(id))
    case SetName(name) => draft.(name := Some(name))
    case SetColor(color) => draft.(color := Some(color))
    case SetEmoji(emoji) => draft.(emoji := Some(emoji))
    case SetSchedule(schedule) => draft.(schedule := Some(schedule))
    case SetCategory(category) => draft.(category := Some(category))
  }

  /** A sequence of setter calls, in order. */
  function ApplyAll(draft: TempTracker, edits: seq<Edit>): TempTracker
    decreases |edits|
  {
    if |edits| == 0 then draft else ApplyAll(Apply(draft, edits[0]), edits[1..])
  }

  /** `getShedule`. */
  function GetSchedule(draft: TempTracker): (r: Option<seq<int>>)
    ensures BuildTracker(draft).Some? ==> r == Some(BuildTracker(draft).value.schedule)
  {
    draft.schedule
  }

  /** `getCategory`: a draft that answers nil here builds nothing. */
  function GetCategory(draft: TempTracker): (r: Option<string>)
    ensures r.None? ==> BuildTracker(draft).None?
  {
    draft.category
  }

  /** `buildTracker`: a tracker carrying the draft's id, name, color, emoji and schedule when the
      draft is complete, nothing otherwise. The category stays behind in the draft. */
  function BuildTracker(draft: TempTracker): (r: Option<Tracker>)
    ensures r.None? <==> !IsComplete(draft)
    ensures r.Some? ==>
      Some(r.value.id) == draft.id && Some(r.value.name) == draft.name &&
      Some(r.value.color) == draft.color && Some(r.value.emoji) == draft.emoji &&
      Some(r.value.schedule) == draft.schedule
  {
    if !IsComplete(draft) then None
    else Some(Tracker(draft.id.value, draft.name.value, draft.color.value, draft.emoji.value, draft.schedule.value))
  }

  /** `resetTempTracker`: afterwards nothing can be built and both getters answer nil. */
  function ResetTempTracker(draft: TempTracker): (r: TempTracker)
    ensures BuildTracker(r).None? && GetSchedule(r).None? && GetCategory(r).None?
  {
    EmptyDraft
  }

  // ---------------------------------------------------------------------------------------------
  // Properties of edit sequences

  /** The schedule argument of the last `setSchedule` call among `edits`, if any. */
  function LastSchedule(edits: seq<Edit>): Option<seq<int>> {
    if |edits| == 0 then None
    else if edits[|edits| - 1].SetSchedule? then Some(edits[|edits| - 1].schedule)
    else LastSchedule(edits[..|edits| - 1])
  }

  /** The category argument of the last `setCategory` call among `edits`, if any. */
  function LastCategory(edits: seq<Edit>): Option<string> {
    if |edits| == 0 then None
    else if edits[|edits| - 1].SetCategory? then Some(edits[|edits| - 1].category)
    else LastCategory(edits[..|edits| - 1])
  }

  /** Applying `edits` then `e` is applying `edits + [e]`. */
  lemma {:induction false} ApplyAllSnoc(draft: TempTracker, edits: seq<Edit>, e: Edit)
    ensures ApplyAll(draft, edits + [e]) == Apply(ApplyAll(draft, edits), e)
    decreases |edits|
  {
    if |edits| == 0 {
      assert edits + [e] == [e];
      assert ApplyAll(Apply(draft, e), []) == Apply(draft, e);
    } else {
      assert (edits + [e])[1..] == edits[1..] + [e];
      ApplyAllSnoc(Apply(draft, edits[0]), edits[1..], e);
    }
  }

  /** Starting from an empty draft, the getters answer the argument of the last matching setter
      call, or nil when there was none. */
  lemma {:induction false} GettersReturnLastSet(edits: seq<Edit>)
    ensures GetSchedule(ApplyAll(EmptyDraft, edits)) == LastSchedule(edits)
    ensures GetCategory(ApplyAll(EmptyDraft, edits)) == LastCategory(edits)
    decreases |edits|
  {
    if |edits| > 0 {
      var init := edits[..|edits| - 1];
      var e := edits[|edits| - 1];
      assert edits == init + [e];
      GettersReturnLastSet(init);
      ApplyAllSnoc(EmptyDraft, init, e);
    }
  }

  /** Every one of the six setters occurs among `edits`. */
  ghost predicate EditsCover(edits: seq<Edit>) {
    (exists i :: 0 <= i < |edits| && edits[i].SetId?) &&
    (exists i :: 0 <= i < |edits| && edits[i].SetName?) &&
    (exists i :: 0 <= i < |edits| && edits[i].SetColor?) &&
    (exists i :: 0 <= i < |edits| && edits[i].SetEmoji?) &&
    (exists i :: 0 <= i < |edits| && edits[i].SetSchedule?) &&
    (exists i :: 0 <= i < |edits| && edits[i].SetCategory?)
  }

  /** After `edits` on a draft, a field is filled iff it was filled before or some edit set it. */
  lemma {:induction false} FilledAfterEdits(draft: TempTracker, edits: seq<Edit>)
    ensures var r := ApplyAll(draft, edits);
      (r.id.Some? <==> draft.id.Some? || exists i :: 0 <= i < |edits| && edits[i].SetId?) &&
      (r.name.Some? <==> draft.name.Some? || exists i :: 0 <= i < |edits| && edits[i].SetName?) &&
      (r.color.Some? <==> draft.color.Some? || exists i :: 0 <= i < |edits| && edits[i].SetColor?) &&
      (r.emoji.Some? <==> draft.emoji.Some? || exists i :: 0 <= i < |edits| && edits[i].SetEmoji?) &&
      (r.schedule.Some? <==> draft.schedule.Some? || exists i :: 0 <= i < |edits| && edits[i].SetSchedule?) &&
      (r.category.Some? <==> draft.category.Some? || exists i :: 0 <= i < |edits| && edits[i].SetCategory?)
    decreases |edits|
  {
    if |edits| > 0 {
      FilledAfterEdits(Apply(draft, edits[0]), edits[1..]);
      assert forall i :: 0 < i < |edits| ==> edits[i] == edits[1..][i - 1];
      assert forall i :: 0 <= i < |edits| - 1 ==> edits[1..][i] == edits[i + 1];
    }
  }

  /** From an empty draft, the draft is complete exactly when every one of the six setters has
      been called at least once; so any five of them are not enough. */
  lemma CompleteIffAllFieldsSet(edits: seq<Edit>)
    ensures IsComplete(ApplyAll(EmptyDraft, edits)) <==> EditsCover(edits)
  {
    FilledAfterEdits(EmptyDraft, edits);
  }

  /** No setter can make a complete draft incomplete: once `isComplete` holds, it holds after any
      further run of setter calls, and the draft keeps building a tracker. */
  lemma {:induction false} SettersKeepComplete(draft: TempTracker, edits: seq<Edit>)
    requires IsComplete(draft)
    ensures IsComplete(ApplyAll(draft, edits)) && BuildTracker(ApplyAll(draft, edits)).Some?
    decreases |edits|
  {
    if |edits| > 0 {
      SettersKeepComplete(Apply(draft, edits[0]), edits[1..]);
    }
  }

  /** Setting the six fields of `t` (in the order the creation screens do) and a category
      builds exactly `t`. */
  lemma BuildAfterSettingAllFields(t: Tracker, category: string)
    ensures BuildTracker(ApplyAll(EmptyDraft,
      [SetId(t.id), SetName(t.name), SetColor(t.color), SetEmoji(t.emoji),
       SetSchedule(t.schedule), SetCategory(category)])) == Some(t)
  {
    var es := [SetId(t.id), SetName(t.name), SetColor(t.color), SetEmoji(t.emoji),
       SetSchedule(t.schedule), SetCategory(category)];
    var d1 := Apply(EmptyDraft, es[0]);
    var d2 := Apply(d1, es[1]);
    var d3 := Apply(d2, es[2]);
    var d4 := Apply(d3, es[3]);
    var d5 := Apply(d4, es[4]);
    var d6 := Apply(d5, es[5]);
    calc {
      ApplyAll(EmptyDraft, es);
      ApplyAll(d1, es[1..]);
      { assert es[1..][1..] == es[2..]; }
      ApplyAll(d2, es[2..]);
      { assert es[2..][1..] == es[3..]; }
      ApplyAll(d3, es[3..]);
      { assert es[3..][1..] == es[4..]; }
      ApplyAll(d4, es[4..]);
      { assert es[4..][1..] == es[5..]; }
      ApplyAll(d5, es[5..]);
      { assert es[5..][1..] == []; }
      ApplyAll(d6, []);
    }
    assert d6 == TempTracker(Some(t.id), Some(t.name), Some(t.color), Some(t.emoji),
      Some(t.schedule), Some(category));
  }

  /** After a reset, whatever is set next starts from scratch: an edit sequence that does not
      set every field builds nothing. */
  lemma ResetForgetsEarlierEdits(draft: TempTracker, edits: seq<Edit>)
    requires !EditsCover(edits)
    ensures BuildTracker(ApplyAll(ResetTempTracker(draft), edits)).None?
  {
    CompleteIffAllFieldsSet(edits);
  }
}

=== FILE: tracker_cell.dfy ===
/** The logic of one tracker card (`TrackersCollectionViewCell`): the "N days" counter label with
    its Russian plural suffix, the check button that completes or un-completes the tracker for
    the shown date, and the refresh of the button's selection from the completion ledger. */
module TrackerCell {
  import opened Common
  import opened TrackerModel
  import opened TrackersView

  // ---------------------------------------------------------------------------------------------
  // Integer arithmetic as Swift does it

  /** Swift's `%` on `Int` by a positive divisor: truncating division, so the remainder has the
      sign of the dividend (Dafny's own `%` is Euclidean and never negative). */
  function SwiftRem(a: int, b: int): (r: int)
    requires b > 0
    ensures exists q :: a == q * b + r
    ensures a >= 0 ==> 0 <= r < b
    ensures a < 0 ==> -b < r <= 0
  {
    if a >= 0 then
      assert a == (a / b) * b + a % b;
      a % b
    else
      assert -a == ((-a) / b) * b + (-a) % b;
      assert a == (-((-a) / b)) * b + -((-a) % b);
      -((-a) % b)
  }

  /** For a non-negative dividend and positive divisor Swift and Dafny agree. */
  lemma SwiftRemOfNatural(a: int, b: int)
    requires a >= 0 && b > 0
    ensures SwiftRem(a, b) == a % b
  {
  }

  // ---------------------------------------------------------------------------------------------
  // The plural suffix

  /** The suffix chosen by `dayToString`'s `switch num % 10`, with its `where` guards: one of the
      three plural forms, and the general one for every negative count. */
  function Suffix(num: int): (r: string)
    ensures r == "день" || r == "дня" || r == "дней"
    ensures num < 0 ==> r == "дней"
  {
    var lastDigit := SwiftRem(num, 10);
    if lastDigit == 1 && SwiftRem(num - 1, 100) != 10 then "день"
    else if (lastDigit == 2 || lastDigit == 3 || lastDigit == 4) && SwiftRem(num - lastDigit, 100) != 10 then "дня"
    else "дней"
  }

  /** The three suffixes differ. */
  lemma SuffixesDistinct()
    ensures "день" != "дня" && "день" != "дней" && "дня" != "дней"
  {
    assert "день"[2] != "дня"[2];
    assert |"дня"| != |"дней"|;
  }

  /** The last digit of a natural number is the last digit of its last two digits. */
  lemma UnitsOfHundreds(n: int)
    requires n >= 0
    ensures n % 10 == (n % 100) % 10
  {
    var q := n / 100;
    var m := n % 100;
    assert n == 10 * (10 * q + m / 10) + m % 10;
  }

  /** The digit below the tens and the number below the hundreds of a natural number. */
  lemma LastDigits(n: int)
    requires n >= 0
    ensures n % 10 == (n % 100) % 10
    ensures (n - n % 10) % 100 == n % 100 - n % 10
  {
    UnitsOfHundreds(n);
    var q := n / 100;
    assert n - n % 10 == 100 * q + (n % 100 - n % 10);
  }

  /** "день" exactly for numbers ending in 1 but not in 11: 1, 21, 101, never 11 or 111, and
      never a negative number. */
  lemma SuffixDen(n: int)
    ensures Suffix(n) == "день" <==> n >= 0 && n % 10 == 1 && n % 100 != 11
  {
    SuffixesDistinct();
    if n >= 0 {
      LastDigits(n);
      if n % 10 == 1 {
        LastDigits(n - 1);
        assert (n - 1) % 10 == 0;
      }
    }
  }

  /** "дня" exactly for numbers ending in 2, 3 or 4 whose last two digits are not 12, 13 or 14;
      never for a negative number. */
  lemma SuffixDnya(n: int)
    ensures Suffix(n) == "дня" <==>
      n >= 0 && 2 <= n % 10 <= 4 && !(10 <= n % 100 <= 19)
  {
    SuffixesDistinct();
    if n >= 0 {
      LastDigits(n);
      if n % 10 == 1 {
        LastDigits(n - 1);
        assert (n - 1) % 10 == 0;
      }
    }
  }

  /** "дней" in every other case: 0, 5 to 20, 111 to 114, and all negative numbers. */
  lemma SuffixDney(n: int)
    ensures Suffix(n) == "дней" <==>
      n < 0 || (!(n % 10 == 1 && n % 100 != 11) && !(2 <= n % 10 <= 4 && !(10 <= n % 100 <= 19)))
  {
    SuffixDen(n);
    SuffixDnya(n);
  }

  /** For natural numbers only the last two digits matter. */
  lemma SuffixPeriodic(n: int)
    requires n >= 0
    ensures Suffix(n) == Suffix(n % 100)
  {
    SuffixDen(n);
    SuffixDnya(n);
    SuffixDen(n % 100);
    SuffixDnya(n % 100);
    LastDigits(n);
  }

  // ---------------------------------------------------------------------------------------------
  // Decimal numerals, as string interpolation prints an `Int`

  /** The character of decimal digit `d`. */
  function DigitChar(d: int): char
    requires 0 <= d < 10
  {
    ('0' as int + d) as char
  }

  /** Every character is a decimal digit. */
  predicate AllDigits(s: string) {
    forall i :: 0 <= i < |s| ==> '0' <= s[i] <= '9'
  }

  /** The decimal numeral of a natural number: digits only, no leading zero. */
  function NatToDecimal(n: nat): (s: string)
    ensures |s| > 0 && AllDigits(s)
    ensures s[0] == '0' ==> n == 0 && |s| == 1
    decreases n
  {
    if n < 10 then [DigitChar(n)] else NatToDecimal(n / 10) + [DigitChar(n % 10)]
  }

  /** The value of a string of decimal digits. */
  function DecimalValue(s: string): nat
    requires AllDigits(s)
  {
    if |s| == 0 then 0 else DecimalValue(s[..|s| - 1]) * 10 + (s[|s| - 1] as int - '0' as int)
  }

  /** Reading a natural number's numeral back gives the number. */
  lemma {:induction false} NatDecimalRoundTrip(n: nat)
    ensures DecimalValue(NatToDecimal(n)) == n
    decreases n
  {
    if n >= 10 {
      var s := NatToDecimal(n);
      NatDecimalRoundTrip(n / 10);
      assert s[..|s| - 1] == NatToDecimal(n / 10);
    }
  }

  /** Digits without a leading zero, except for "0" itself. */
  predicate PlainDigits(s: string) {
    |s| > 0 && AllDigits(s) && (s[0] == '0' ==> |s| == 1)
  }

  /** The form string interpolation prints an `Int` in: plain digits, after a minus sign exactly
      for negative numbers, so never "-0" and never a leading zero. */
  predicate CanonicalNumeral(s: string) {
    |s| > 0 &&
    if s[0] == '-' then PlainDigits(s[1..]) && s[1] != '0' else PlainDigits(s)
  }

  /** `"\(num)"`: the decimal numeral, with a minus sign for negative numbers. */
  function IntToDecimal(n: int): (s: string)
    ensures CanonicalNumeral(s)
    ensures s[0] == '-' <==> n < 0
  {
    if n < 0 then
      var s := "-" + NatToDecimal(-n);
      assert s[1..] == NatToDecimal(-n);
      s
    else NatToDecimal(n)
  }

  /** Reads an optional minus sign followed by at least one digit. */
  function ParseInt(s: string): Option<int> {
    if |s| > 0 && s[0] == '-' then
      if |s| > 1 && AllDigits(s[1..]) then Some(0 - DecimalValue(s[1..])) else None
    else if |s| > 0 && AllDigits(s) then Some(DecimalValue(s))
    else None
  }

  /** A negative number's numeral reads back as the number. */
  lemma NegativeRoundTrip(n: int)
    requires n < 0
    ensures ParseInt(IntToDecimal(n)) == Some(n)
  {
    var digits := NatToDecimal(-n);
    var s := "-" + digits;
    assert IntToDecimal(n) == s;
    NatDecimalRoundTrip(-n);
    assert s[1..] == digits;
    assert ParseInt(s) == Some(0 - DecimalValue(digits));
  }

  /** A natural number's numeral reads back as the number. */
  lemma NonNegativeRoundTrip(n: int)
    requires n >= 0
    ensures ParseInt(IntToDecimal(n)) == Some(n)
  {
    var digits := NatToDecimal(n);
    NatDecimalRoundTrip(n);
    assert digits[0] != '-';
  }

  /** Every integer's numeral reads back as that integer. */
  lemma ParseIntRoundTrip(n: int)
    ensures ParseInt(IntToDecimal(n)) == Some(n)
  {
    if n < 0 {
      NegativeRoundTrip(n);
    } else {
      NonNegativeRoundTrip(n);
    }
  }

  /** A numeral holds no space, so the label's first space ends it. */
  lemma NumeralHasNoSpace(n: int)
    ensures ' ' !in IntToDecimal(n)
  {
    if n < 0 {
      var numeral := IntToDecimal(n);
      assert numeral == "-" + NatToDecimal(-n);
      assert forall i :: 1 <= i < |numeral| ==> numeral[i] == NatToDecimal(-n)[i - 1];
    }
  }

  /** A numeral of more than one digit without a leading zero is worth at least 10. */
  lemma {:induction false} PlainDigitsAtLeastTen(s: string)
    requires PlainDigits(s) && |s| > 1
    ensures DecimalValue(s) >= 10
    decreases |s|
  {
    var init := s[..|s| - 1];
    assert init[0] == s[0];
    if |init| > 1 {
      PlainDigitsAtLeastTen(init);
    } else {
      assert DecimalValue(init) == DecimalValue(init[..0]) * 10 + (init[0] as int - '0' as int);
    }
  }

  /** Plain digit strings are determined by their value. */
  lemma {:induction false} PlainDigitsUnique(a: string, b: string)
    requires PlainDigits(a) && PlainDigits(b) && DecimalValue(a) == DecimalValue(b)
    ensures a == b
    decreases |a|
  {
    if |a| > 1 && |b| > 1 {
      var ia, ib := a[..|a| - 1], b[..|b| - 1];
      assert ia[0] == a[0] && ib[0] == b[0];
      assert DecimalValue(ia) == DecimalValue(ib);
      PlainDigitsUnique(ia, ib);
      assert a == ia + [a[|a| - 1]] && b == ib + [b[|b| - 1]];
    } else if |a| > 1 {
      assert DecimalValue(b) == DecimalValue(b[..0]) * 10 + (b[0] as int - '0' as int);
      PlainDigitsAtLeastTen(a);
    } else if |b| > 1 {
      assert DecimalValue(a) == DecimalValue(a[..0]) * 10 + (a[0] as int - '0' as int);
      PlainDigitsAtLeastTen(b);
    } else {
      assert DecimalValue(a) == DecimalValue(a[..0]) * 10 + (a[0] as int - '0' as int);
      assert DecimalValue(b) == DecimalValue(b[..0]) * 10 + (b[0] as int - '0' as int);
    }
  }

  /** A numeral without a leading zero is worth more than zero. */
  lemma PlainDigitsPositive(s: string)
    requires PlainDigits(s) && s[0] != '0'
    ensures DecimalValue(s) > 0
  {
    if |s| > 1 {
      PlainDigitsAtLeastTen(s);
    } else {
      assert DecimalValue(s) == DecimalValue(s[..0]) * 10 + (s[0] as int - '0' as int);
    }
  }

  /** A canonical numeral carries a minus sign exactly when it reads as a negative number. */
  lemma NumeralSign(s: string)
    requires CanonicalNumeral(s) && ParseInt(s).Some?
    ensures s[0] == '-' <==> ParseInt(s).value < 0
  {
    if s[0] == '-' {
      PlainDigitsPositive(s[1..]);
    }
  }

  /** Two canonical numerals that read as the same integer are the same string, so a canonical
      numeral is fixed by its value. */
  lemma CanonicalNumeralUnique(a: string, b: string)
    requires CanonicalNumeral(a) && CanonicalNumeral(b) && ParseInt(a).Some? && ParseInt(a) == ParseInt(b)
    ensures a == b
  {
    NumeralSign(a);
    NumeralSign(b);
    if a[0] == '-' && b[0] == '-' {
      PlainDigitsUnique(a[1..], b[1..]);
      assert a == [a[0]] + a[1..] && b == [b[0]] + b[1..];
    } else if a[0] != '-' && b[0] != '-' {
      PlainDigitsUnique(a, b);
    }
  }

  /** A label made of a numeral, one space and a suffix splits at the numeral's end. */
  lemma LabelSplits(numeral: string, suffix: string)
    requires |numeral| > 0
    ensures var text := numeral + " " + suffix;
      text[0] == numeral[0] && text[|numeral|] == ' ' &&
      text[..|numeral|] == numeral && text[|numeral| + 1..] == suffix
  {
  }

  /** `dayToString`: the counter's numeral, one space, then the plural suffix. The label splits at
      its first space into the canonical numeral of `num` (which `CanonicalNumeralUnique` shows is
      the only canonical numeral reading back as `num`) and the suffix. */
  function DayToString(num: int): (text: string)
    ensures exists k :: (0 < k < |text| && text[k] == ' ' && ' ' !in text[..k] &&
                         CanonicalNumeral(text[..k]) && (text[0] == '-' <==> num < 0) &&
                         ParseInt(text[..k]) == Some(num) && text[k + 1..] == Suffix(num))
  {
    var numeral := IntToDecimal(num);
    var suffix := Suffix(num);
    ParseIntRoundTrip(num);
    NumeralHasNoSpace(num);
    LabelSplits(numeral, suffix);
    numeral + " " + suffix
  }

  /** The counter of two days reads "2 дня"; of eleven days, "11 дней"; of twenty-one, "21 день". */
  lemma DayToStringExamples()
    ensures Suffix(2) == "дня" && Suffix(11) == "дней" && Suffix(21) == "день"
  {
    SuffixDen(2);
    SuffixDnya(2);
    SuffixDen(11);
    SuffixDnya(11);
    SuffixDen(21);
  }

  // ---------------------------------------------------------------------------------------------
  // The check button

  /** The cell's state: the tracker it shows (none before `set(with:)`), the completed-days
      counter, and whether the check button is selected. */
  datatype CellState = CellState(tracker: Option<Tracker>, completedDays: int, selected: bool)

  /** What the cell sees of the screen through `delegateVC`: the shown date and the ledger. */
  datatype Delegate = Delegate(currentDate: Instant, completedTrackers: seq<TrackerRecord>)

  /** The call a tap makes on the delegate. */
  datatype LedgerCall = NoCall | AddCall(tracker: Tracker) | RemoveCall(tracker: Tracker)

  /** The cell after a tap, and the call it made. */
  datatype TapResult = TapResult(cell: CellState, call: LedgerCall)

  /** `delegateVC?.currentDate ?? Date()`. */
  function ShownDate(delegate: Option<Delegate>, now: Instant): Instant {
    match delegate
    case Some(d) => d.currentDate
    case None => now
  }

  /** `checkButtonDidTapped`: nothing happens without a tracker or for a date after `now`;
      otherwise an unselected button counts one more day, becomes selected and asks the delegate
      to add a record, and a selected one counts one day less, clears and asks it to remove. */
  function CheckButtonTapped(cell: CellState, delegate: Option<Delegate>, now: Instant): (r: TapResult)
    ensures cell.tracker.None? || ShownDate(delegate, now) > now ==> r == TapResult(cell, NoCall)
    ensures cell.tracker.Some? && ShownDate(delegate, now) <= now ==>
      r.cell.tracker == cell.tracker &&
      r.cell.selected == !cell.selected &&
      r.cell.completedDays == cell.completedDays + (if cell.selected then -1 else 1) &&
      r.call == (if delegate.None? then NoCall
                 else if cell.selected then RemoveCall(cell.tracker.value)
                 else AddCall(cell.tracker.value))
  {
    match cell.tracker
    case None => TapResult(cell, NoCall)
    case Some(tracker) =>
      if ShownDate(delegate, now) > now then TapResult(cell, NoCall)
      else if !cell.selected then
        TapResult(cell.(completedDays := cell.completedDays + 1, selected := true),
                  if delegate.Some? then AddCall(tracker) else NoCall)
      else
        TapResult(cell.(completedDays := cell.completedDays - 1, selected := false),
                  if delegate.Some? then RemoveCall(tracker) else NoCall)
  }

  /** Two taps on the same date always restore the counter and the selection; with a tracker, a
      screen and a shown date not after now, the first call adds and the second removes, or the
      other way round. */
  lemma TapTwiceRestores(cell: CellState, delegate: Option<Delegate>, now: Instant)
    ensures var first := CheckButtonTapped(cell, delegate, now);
      var second := CheckButtonTapped(first.cell, delegate, now);
      second.cell == cell &&
      (cell.tracker.Some? && delegate.Some? && delegate.value.currentDate <= now ==>
        {first.call, second.call} == {AddCall(cell.tracker.value), RemoveCall(cell.tracker.value)})
  {
  }

  /** The screen performing the call a tap made. */
  function PerformCall(v: ViewState, call: LedgerCall, cal: Calendar): ViewState {
    match call
    case NoCall => v
    case AddCall(t) => AddCompletedTracker(v, t)
    case RemoveCall(t) => RemoveCompletedTracker(v, t, cal)
  }

  // ---------------------------------------------------------------------------------------------
  // Refreshing the selection from the ledger

  /** `isThisDaySelected` as written: the button is selected when the ledger holds a record of
      ANY tracker on the shown day. */
  function IsThisDaySelected(cell: CellState, delegate: Option<Delegate>, now: Instant, cal: Calendar): (r: CellState)
    ensures r.tracker == cell.tracker && r.completedDays == cell.completedDays
    ensures cell.tracker.Some? ==>
      (r.selected <==>
        (delegate.Some? &&
         exists i :: 0 <= i < |delegate.value.completedTrackers| &&
           SameDay(cal, delegate.value.completedTrackers[i].date, ShownDate(delegate, now))))
    ensures cell.tracker.None? ==> r == cell
  {
    match cell.tracker
    case None => cell
    case Some(_) =>
      var day := ShownDate(delegate, now);
      var containsRecordWithCurrentDate :=
        match delegate
        case Some(d) => exists rec | rec in d.completedTrackers :: SameDay(cal, rec.date, day)
        case None => false;
      cell.(selected := containsRecordWithCurrentDate)
  }

  /** The as-written refresh selects a tracker's button because of another tracker's record:
      tracker 1 was never completed, yet its button shows as done. */
  lemma SelectionIgnoresTracker(cal: Calendar, t: Tracker, date: Instant)
    requires t.id == Uuid(1)
    ensures var delegate := Some(Delegate(date, [TrackerRecord(Uuid(2), date)]));
      var cell := IsThisDaySelected(CellState(Some(t), 0, false), delegate, date, cal);
      cell.selected &&
      forall i :: 0 <= i < |delegate.value.completedTrackers| ==>
        !CompletesOn(cal, delegate.value.completedTrackers[i], t.id, date)
  {
    assert TrackerRecord(Uuid(2), date) in [TrackerRecord(Uuid(2), date)];
  }

  /** The refresh as intended: selected exactly when the ledger holds a record of THIS tracker on
      the shown day. */
  function IsThisDaySelectedForTracker(cell: CellState, delegate: Option<Delegate>, now: Instant, cal: Calendar): (r: CellState)
    ensures r.tracker == cell.tracker && r.completedDays == cell.completedDays
    ensures cell.tracker.Some? ==>
      (r.selected <==>
        (delegate.Some? &&
         exists i :: 0 <= i < |delegate.value.completedTrackers| &&
           CompletesOn(cal, delegate.value.completedTrackers[i], cell.tracker.value.id, ShownDate(delegate, now))))
    ensures cell.tracker.None? ==> r == cell
  {
    match cell.tracker
    case None => cell
    case Some(tracker) =>
      var day := ShownDate(delegate, now);
      var completed :=
        match delegate
        case Some(d) => exists rec | rec in d.completedTrackers :: CompletesOn(cal, rec, tracker.id, day)
        case None => false;
      cell.(selected := completed)
  }

  /** The screen as the cell's delegate sees it. */
  function AsDelegate(v: ViewState): Delegate {
    Delegate(v.currentDate, v.completed)
  }

  /** The button's selection agrees with the ledger: it is selected exactly when the ledger
      records the cell's tracker on the screen's date. */
  ghost predicate SelectionMatchesLedger(cell: CellState, v: ViewState, cal: Calendar) {
    cell.tracker.Some? &&
    (cell.selected <==>
      exists i :: 0 <= i < |v.completed| && CompletesOn(cal, v.completed[i], cell.tracker.value.id, v.currentDate))
  }

  /** A tap on a past or present date, followed by the screen performing the requested call,
      keeps the button in agreement with the ledger, and the intended refresh then leaves the
      button as the tap set it. */
  lemma TapKeepsSelectionInSync(cell: CellState, v: ViewState, now: Instant, cal: Calendar)
    requires SelectionMatchesLedger(cell, v, cal)
    requires v.currentDate <= now
    ensures var r := CheckButtonTapped(cell, Some(AsDelegate(v)), now);
      var v' := PerformCall(v, r.call, cal);
      SelectionMatchesLedger(r.cell, v', cal) &&
      IsThisDaySelectedForTracker(r.cell, Some(AsDelegate(v')), now, cal) == r.cell
  {
    var t := cell.tracker.value;
    var r := CheckButtonTapped(cell, Some(AsDelegate(v)), now);
    var v' := PerformCall(v, r.call, cal);
    if !cell.selected {
      assert r.call == AddCall(t);
      var last := |v.completed|;
      assert v'.completed[last] == TrackerRecord(t.id, v.currentDate);
      assert CompletesOn(cal, v'.completed[last], t.id, v'.currentDate);
    } else {
      assert r.call == RemoveCall(t);
    }
  }
}

=== FILE: tracker_model.dfy ===
/** The domain values of the app (trackers, categories, completion records) and the schedule
    logic of `Tracker`: weekday names and the distance to the next scheduled day. */
module TrackerModel {
  import opened Common

  /** A habit. `schedule` holds weekday indices into `WeekdayNames`, in the order the user
      picked them; nothing forces them into range, order or uniqueness. */
  datatype Tracker = Tracker(id: Uuid, name: string, color: string, emoji: string, schedule: seq<int>)

  /** A titled group of trackers, as shown in one section of the trackers screen. */
  datatype TrackerCategory = TrackerCategory(title: string, trackers: seq<Tracker>)

  /** "Tracker `recordID` was completed at `date`"; only the calendar day of `date` is compared. */
  datatype TrackerRecord = TrackerRecord(recordID: Uuid, date: Instant)

  /** The fixed table of weekday names, Monday first. */
  const WeekdayNames: seq<string> :=
    ["Понедельник", "Вторник", "Среда", "Четверг", "Пятница", "Суббота", "Воскресенье"]

  /** Indices the weekday table can answer. */
  predicate InWeek(i: int) {
    0 <= i < |WeekdayNames|
  }

  /** The seven weekday names are pairwise different. */
  lemma WeekdayNamesDistinct(i: int, j: int)
    requires InWeek(i) && InWeek(j) && i != j
    ensures WeekdayNames[i] != WeekdayNames[j]
  {
  }

  // ---------------------------------------------------------------------------------------------
  // getDays

  /** The names of the in-week entries of `schedule`, in schedule order, duplicates kept. */
  function DayNames(schedule: seq<int>): (names: seq<string>)
    ensures |names| <= |schedule|
    ensures |names| == |schedule| <==> forall i :: 0 <= i < |schedule| ==> InWeek(schedule[i])
    ensures forall i :: 0 <= i < |names| ==> names[i] in WeekdayNames
  {
    if |schedule| == 0 then []
    else
      assert forall i :: 0 < i < |schedule| ==> schedule[i] == schedule[1..][i - 1];
      (if InWeek(schedule[0]) then [WeekdayNames[schedule[0]]] else []) + DayNames(schedule[1..])
  }

  /** `Tracker.getDays`. */
  function GetDays(t: Tracker): (names: seq<string>)
    ensures |names| <= |t.schedule|
    ensures |names| == |t.schedule| <==> forall i :: 0 <= i < |t.schedule| ==> InWeek(t.schedule[i])
    ensures forall i :: 0 <= i < |names| ==> names[i] in WeekdayNames
  {
    DayNames(t.schedule)
  }

  /** `getDays` is "keep the in-range indices, then look each one up": a filter followed by a map. */
  lemma {:induction false} DayNamesIsLookupOfInRange(schedule: seq<int>)
    ensures var kept := Filter(schedule, InWeek);
      |DayNames(schedule)| == |kept| &&
      forall k :: 0 <= k < |kept| ==> DayNames(schedule)[k] == WeekdayNames[kept[k]]
  {
    if |schedule| > 0 {
      DayNamesIsLookupOfInRange(schedule[1..]);
    }
  }

  /** Each in-week index of the schedule contributes its own name to `getDays`. */
  lemma {:induction false} ScheduledIndexNamed(schedule: seq<int>, i: int)
    requires 0 <= i < |schedule| && InWeek(schedule[i])
    ensures WeekdayNames[schedule[i]] in DayNames(schedule)
  {
    if i > 0 {
      assert schedule[i] == schedule[1..][i - 1];
      ScheduledIndexNamed(schedule[1..], i - 1);
    }
  }

  /** A weekday's name is among `getDays` exactly when its index is in the schedule. */
  lemma {:induction false} DayNamedIffScheduled(schedule: seq<int>, d: int)
    requires InWeek(d)
    ensures WeekdayNames[d] in DayNames(schedule) <==> d in schedule
  {
    if |schedule| > 0 {
      DayNamedIffScheduled(schedule[1..], d);
      if InWeek(schedule[0]) && schedule[0] != d {
        WeekdayNamesDistinct(schedule[0], d);
      }
      assert d in schedule <==> d == schedule[0] || d in schedule[1..];
    }
  }

  // ---------------------------------------------------------------------------------------------
  // daysUntilNextScheduledDay

  /** The position of the first entry of `s` that is at least `bound` (`first(where:)`). */
  function FirstAtLeast(s: seq<int>, bound: int): (r: Option<nat>)
    ensures r.Some? ==> r.value < |s| && s[r.value] >= bound
    ensures r.Some? ==> forall j :: 0 <= j < r.value ==> s[j] < bound
    ensures r.None? <==> forall j :: 0 <= j < |s| ==> s[j] < bound
  {
    if |s| == 0 then None
    else if s[0] >= bound then Some(0)
    else
      assert forall j :: 0 < j < |s| ==> s[j] == s[1..][j - 1];
      match FirstAtLeast(s[1..], bound)
      case None => None
      case Some(k) => Some(k + 1)
  }

  /** `Tracker.daysUntilNextScheduledDay`: the first entry (in list order) that is not before
      `currentDay`, else the first entry one week later, as an offset from `currentDay`;
      -1 when nothing is scheduled. */
  function DaysUntilNextScheduledDay(t: Tracker, currentDay: int): (r: int)
    ensures |t.schedule| == 0 ==> r == -1
    ensures (exists i :: 0 <= i < |t.schedule| && t.schedule[i] >= currentDay) ==>
      r >= 0 &&
      exists i :: 0 <= i < |t.schedule| && t.schedule[i] >= currentDay && r == t.schedule[i] - currentDay &&
        forall j :: 0 <= j < i ==> t.schedule[j] < currentDay
    ensures |t.schedule| > 0 && (forall i :: 0 <= i < |t.schedule| ==> t.schedule[i] < currentDay) ==>
      r == t.schedule[0] - currentDay + 7
  {
    var next :=
      match FirstAtLeast(t.schedule, currentDay)
      case Some(k) => Some(t.schedule[k])
      case None => if |t.schedule| > 0 then Some(t.schedule[0]) else None;
    match next
    case Some(day) =>
      var daysUntilNextDay := day - currentDay;
      if daysUntilNextDay >= 0 then daysUntilNextDay else daysUntilNextDay + 7
    case None => -1
  }

  /** Every entry is a valid weekday index. */
  predicate ValidSchedule(schedule: seq<int>) {
    forall i :: 0 <= i < |schedule| ==> InWeek(schedule[i])
  }

  /** Entries never decrease; a day may repeat. */
  predicate Sorted(schedule: seq<int>) {
    forall i, j :: 0 <= i < j < |schedule| ==> schedule[i] <= schedule[j]
  }

  /** With in-week entries and day, the offset is -1 exactly for an empty schedule and a day of
      the coming week otherwise. */
  lemma DaysUntilInWeek(t: Tracker, currentDay: int)
    requires ValidSchedule(t.schedule) && InWeek(currentDay)
    ensures var r := DaysUntilNextScheduledDay(t, currentDay);
      (r == -1 <==> |t.schedule| == 0) && (|t.schedule| > 0 ==> 0 <= r < 7)
  {
  }

  /** The weekday `d` days after weekday `day`. */
  function WeekdayAfter(day: int, d: int): int {
    (day + d) % 7
  }

  /** Within two weeks of an in-week day, the weekday after is a plain sum, wrapped at most once. */
  lemma WeekdayAfterInRange(day: int, d: int)
    requires 0 <= day + d < 14
    ensures day + d < 7 ==> WeekdayAfter(day, d) == day + d
    ensures 7 <= day + d ==> WeekdayAfter(day, d) == day + d - 7
  {
  }

  /** For a sorted in-week schedule the offset is the least `d >= 0` whose weekday
      `(currentDay + d) % 7` is scheduled. */
  lemma DaysUntilIsLeastOffset(t: Tracker, currentDay: int)
    requires ValidSchedule(t.schedule) && Sorted(t.schedule) && InWeek(currentDay)
    requires |t.schedule| > 0
    ensures var r := DaysUntilNextScheduledDay(t, currentDay);
      0 <= r < 7 && WeekdayAfter(currentDay, r) in t.schedule &&
      forall d :: 0 <= d < r ==> WeekdayAfter(currentDay, d) !in t.schedule
  {
    match FirstAtLeast(t.schedule, currentDay)
    case Some(k) => LeastOffsetSameWeek(t.schedule, currentDay, k);
    case None => LeastOffsetNextWeek(t.schedule, currentDay);
  }

  /** No entry of a sorted schedule lies at or after `bound` but before the first entry that
      reaches it. */
  lemma NoEntryBeforeFirstAtLeast(s: seq<int>, bound: int, k: nat, w: int)
    requires Sorted(s) && FirstAtLeast(s, bound) == Some(k)
    requires bound <= w < s[k]
    ensures w !in s
  {
    forall j | 0 <= j < |s|
      ensures s[j] != w
    {
      if j > k {
        assert s[k] <= s[j];
      }
    }
  }

  /** When every entry is below `bound`, no entry lies at or above it, nor below the first one. */
  lemma NoEntryOutsideRange(s: seq<int>, bound: int, w: int)
    requires Sorted(s) && |s| > 0 && FirstAtLeast(s, bound) == None
    requires bound <= w || w < s[0]
    ensures w !in s
  {
    forall j | 0 <= j < |s|
      ensures s[j] != w
    {
      if j > 0 {
        assert s[0] <= s[j];
      }
    }
  }

  /** A day after `currentDay` but before the first entry reaching it is not scheduled. */
  lemma SameWeekGap(s: seq<int>, currentDay: int, k: nat, d: int)
    requires ValidSchedule(s) && Sorted(s) && InWeek(currentDay)
    requires FirstAtLeast(s, currentDay) == Some(k)
    requires 0 <= d < s[k] - currentDay
    ensures WeekdayAfter(currentDay, d) !in s
  {
    assert InWeek(s[k]);
    WeekdayAfterInRange(currentDay, d);
    NoEntryBeforeFirstAtLeast(s, currentDay, k, currentDay + d);
  }

  /** The case where some entry is not before `currentDay`. */
  lemma LeastOffsetSameWeek(s: seq<int>, currentDay: int, k: nat)
    requires ValidSchedule(s) && Sorted(s) && InWeek(currentDay)
    requires FirstAtLeast(s, currentDay) == Some(k)
    ensures WeekdayAfter(currentDay, s[k] - currentDay) == s[k]
    ensures forall d :: 0 <= d < s[k] - currentDay ==> WeekdayAfter(currentDay, d) !in s
  {
    assert InWeek(s[k]);
    WeekdayAfterInRange(currentDay, s[k] - currentDay);
    forall d | 0 <= d < s[k] - currentDay
      ensures WeekdayAfter(currentDay, d) !in s
    {
      SameWeekGap(s, currentDay, k, d);
    }
  }

  /** The case where every entry is before `currentDay`: wrap to the first entry next week. */
  lemma LeastOffsetNextWeek(s: seq<int>, currentDay: int)
    requires ValidSchedule(s) && Sorted(s) && InWeek(currentDay) && |s| > 0
    requires FirstAtLeast(s, currentDay) == None
    ensures WeekdayAfter(currentDay, s[0] - currentDay + 7) == s[0]
    ensures forall d :: 0 <= d < s[0] - currentDay + 7 ==> WeekdayAfter(currentDay, d) !in s
  {
    assert InWeek(s[0]);
    WeekdayAfterInRange(currentDay, s[0] - currentDay + 7);
    forall d | 0 <= d < s[0] - currentDay + 7
      ensures WeekdayAfter(currentDay, d) !in s
    {
      WeekdayAfterInRange(currentDay, d);
      NoEntryOutsideRange(s, currentDay, WeekdayAfter(currentDay, d));
    }
  }

  /** For a sorted in-week schedule the offset is 0 exactly on scheduled days. */
  lemma DaysUntilZeroIffScheduled(t: Tracker, currentDay: int)
    requires ValidSchedule(t.schedule) && Sorted(t.schedule) && InWeek(currentDay)
    ensures DaysUntilNextScheduledDay(t, currentDay) == 0 <==> currentDay in t.schedule
  {
    if |t.schedule| > 0 {
      DaysUntilIsLeastOffset(t, currentDay);
      assert WeekdayAfter(currentDay, 0) == currentDay;
    }
  }

  /** List order, not the minimum, decides: on the unsorted schedule [5, 2] the offset from
      day 2 is 3, although day 2 itself is scheduled. */
  lemma UnsortedScheduleTakesFirstEntry()
    ensures DaysUntilNextScheduledDay(Tracker(Uuid(0), "", "", "", [5, 2]), 2) == 3
  {
    assert FirstAtLeast([5, 2], 2) == Some(0);
  }

  /** Out-of-week entries can make a non-empty schedule report -1, the "nothing scheduled" value. */
  lemma OutOfWeekEntryMimicsEmpty()
    ensures DaysUntilNextScheduledDay(Tracker(Uuid(0), "", "", "", [-8]), 0) == -1
  {
    assert FirstAtLeast([-8], 0) == None;
  }
}

=== FILE: tracker_store.dfy ===
/** The persistence adapter (`TrackerStore`): decoding stored tracker objects into `Tracker`
    values, encoding them back, grouping decoded trackers by category title, and accumulating the
    row changes the platform reports into one update. */
module TrackerStore {
  import opened Common
  import opened TrackerModel

  /** `TrackerStoreError`: one decoding error per required field, plus the category-level one. */
  datatype TrackerStoreError =
    | DecodingErrorInvalidID
    | DecodingErrorInvalidName
    | DecodingErrorInvalidColor
    | DecodingErrorInvalidEmoji
    | DecodingErrorInvalidShedule
    | DecodingErrorInvalidCategory

  /** A value or the error a throwing function threw. */
  datatype Result<T> = Success(value: T) | Failure(error: TrackerStoreError)

  /** The stored `schedule` attribute is a transformable object: an integer array when written
      by the app, possibly something else. */
  datatype StoredObject = IntArray(values: seq<int>) | OtherObject

  /** The stored category object, as far as grouping needs it. */
  datatype TrackerCategoryCoreData = TrackerCategoryCoreData(title: Option<string>)

  /** The stored tracker object: every attribute may be missing. */
  datatype TrackerCoreData = TrackerCoreData(
    id: Option<Uuid>,
    name: Option<string>,
    color: Option<string>,
    emoji: Option<string>,
    schedule: Option<StoredObject>,
    category: Option<TrackerCategoryCoreData>)

  /** `schedule as? [Int]`. */
  function ScheduleArray(stored: Option<StoredObject>): Option<seq<int>> {
    match stored
    case Some(IntArray(values)) => Some(values)
    case _ => None
  }

  // ---------------------------------------------------------------------------------------------
  // makeTracker and updateTracker

  /** `makeTracker`: checks id, name, color, emoji and schedule in that order, throwing the error
      of the first one missing; otherwise builds the tracker from exactly those values. */
  function MakeTracker(obj: TrackerCoreData): (r: Result<Tracker>)
    ensures r == Failure(DecodingErrorInvalidID) <==> obj.id.None?
    ensures r == Failure(DecodingErrorInvalidName) <==> obj.id.Some? && obj.name.None?
    ensures r == Failure(DecodingErrorInvalidColor) <==>
      obj.id.Some? && obj.name.Some? && obj.color.None?
    ensures r == Failure(DecodingErrorInvalidEmoji) <==>
      obj.id.Some? && obj.name.Some? && obj.color.Some? && obj.emoji.None?
    ensures r == Failure(DecodingErrorInvalidShedule) <==>
      obj.id.Some? && obj.name.Some? && obj.color.Some? && obj.emoji.Some? && ScheduleArray(obj.schedule).None?
    ensures r != Failure(DecodingErrorInvalidCategory)
    ensures r.Success? ==>
      Some(r.value.id) == obj.id && Some(r.value.name) == obj.name && Some(r.value.color) == obj.color &&
      Some(r.value.emoji) == obj.emoji && Some(r.value.schedule) == ScheduleArray(obj.schedule)
  {
    if obj.id.None? then Failure(DecodingErrorInvalidID)
    else if obj.name.None? then Failure(DecodingErrorInvalidName)
    else if obj.color.None? then Failure(DecodingErrorInvalidColor)
    else if obj.emoji.None? then Failure(DecodingErrorInvalidEmoji)
    else
      match ScheduleArray(obj.schedule)
      case None => Failure(DecodingErrorInvalidShedule)
      case Some(schedule) =>
        Success(Tracker(obj.id.value, obj.name.value, obj.color.value, obj.emoji.value, schedule))
  }

  /** `updateTracker`: writes the tracker's five fields into the stored object; its category
      link is left as it was. */
  function UpdateTracker(obj: TrackerCoreData, t: Tracker): (r: TrackerCoreData)
    ensures r.category == obj.category
    ensures r.id == Some(t.id) && r.name == Some(t.name) && r.color == Some(t.color) && r.emoji == Some(t.emoji)
    ensures ScheduleArray(r.schedule) == Some(t.schedule)
  {
    obj.(id := Some(t.id), name := Some(t.name), color := Some(t.color), emoji := Some(t.emoji),
         schedule := Some(IntArray(t.schedule)))
  }

  /** `addNewTracker`: a fresh stored object, filled in from the tracker and not yet linked to a
      category, which decodes back to the tracker. */
  function AddNewTracker(t: Tracker): (obj: TrackerCoreData)
    ensures MakeTracker(obj) == Success(t)
    ensures CategoryTitle(obj).None?
  {
    UpdateTracker(TrackerCoreData(None, None, None, None, None, None), t)
  }

  /** Writing a tracker into any stored object and decoding it gives the tracker back. */
  lemma UpdateThenMakeRoundTrip(obj: TrackerCoreData, t: Tracker)
    ensures MakeTracker(UpdateTracker(obj, t)) == Success(t)
  {
  }

  /** Writing back what an object decodes to changes nothing in the object. */
  lemma MakeThenUpdateRoundTrip(obj: TrackerCoreData)
    requires MakeTracker(obj).Success?
    ensures UpdateTracker(obj, MakeTracker(obj).value) == obj
  {
  }

  // ---------------------------------------------------------------------------------------------
  // makeCategory

  /** `trackerCoreData.category?.title`. */
  function CategoryTitle(obj: TrackerCoreData): Option<string> {
    match obj.category
    case Some(c) => c.title
    case None => None
  }

  /** No two groups share a title (they are the keys of a dictionary). */
  predicate DistinctTitles(groups: seq<TrackerCategory>) {
    forall i, j :: 0 <= i < j < |groups| ==> groups[i].title != groups[j].title
  }

  /** Some group has title `title`. */
  predicate HasTitle(groups: seq<TrackerCategory>, title: string) {
    exists g :: 0 <= g < |groups| && groups[g].title == title
  }

  /** The dictionary update of `makeCategory`: append `t` to the group titled `title`, or start
      that group if there is none. */
  function AddToGroup(groups: seq<TrackerCategory>, title: string, t: Tracker): (r: seq<TrackerCategory>)
    requires DistinctTitles(groups)
    ensures DistinctTitles(r)
    ensures HasTitle(groups, title) ==> |r| == |groups|
    ensures !HasTitle(groups, title) ==> |r| == |groups| + 1 && r[|groups|] == TrackerCategory(title, [t])
    ensures forall g :: 0 <= g < |groups| ==>
      r[g].title == groups[g].title &&
      r[g].trackers == (if groups[g].title == title then groups[g].trackers + [t] else groups[g].trackers)
  {
    if |groups| == 0 then [TrackerCategory(title, [t])]
    else
      assert forall g :: 0 < g < |groups| ==> groups[g] == groups[1..][g - 1];
      if groups[0].title == title then
        [groups[0].(trackers := groups[0].trackers + [t])] + groups[1..]
      else
        [groups[0]] + AddToGroup(groups[1..], title, t)
  }

  /** Every object decodes. */
  predicate AllDecode(objs: seq<TrackerCoreData>) {
    forall i :: 0 <= i < |objs| ==> MakeTracker(objs[i]).Success?
  }

  /** Every group holds at least one tracker. */
  predicate NonEmptyGroups(groups: seq<TrackerCategory>) {
    forall g :: 0 <= g < |groups| ==> |groups[g].trackers| > 0
  }

  /** `AllDecode` of a sequence with one more object at the end. */
  lemma AllDecodeSnoc(objs: seq<TrackerCoreData>)
    requires |objs| > 0
    ensures AllDecode(objs) <==> AllDecode(objs[..|objs| - 1]) && MakeTracker(objs[|objs| - 1]).Success?
  {
    var init := objs[..|objs| - 1];
    assert forall i :: 0 <= i < |init| ==> init[i] == objs[i];
  }

  /** `makeCategory`: decodes the objects in order and groups the trackers by their category's
      title, dropping those without one. Any object that fails to decode makes the whole call
      throw `decodingErrorInvalidCategory`, whatever its own error was. Groups come out in the
      order their titles first appear (the source leaves that order to its dictionary). */
  function MakeCategory(objs: seq<TrackerCoreData>): (r: Result<seq<TrackerCategory>>)
    ensures r.Failure? <==> !AllDecode(objs)
    ensures r.Failure? ==> r.error == DecodingErrorInvalidCategory
    ensures r.Success? ==> DistinctTitles(r.value) && NonEmptyGroups(r.value)
    decreases |objs|
  {
    if |objs| == 0 then Success([])
    else
      var init := objs[..|objs| - 1];
      var last := objs[|objs| - 1];
      AllDecodeSnoc(objs);
      match MakeCategory(init)
      case Failure(e) => Failure(e)
      case Success(groups) =>
        if MakeTracker(last).Failure? then Failure(DecodingErrorInvalidCategory)
        else Success(FileTracker(groups, last))
  }

  /** One round of `makeCategory`'s loop on an object that decodes: its tracker is filed under its
      category's title, or skipped when it has none. */
  function FileTracker(groups: seq<TrackerCategory>, obj: TrackerCoreData): (r: seq<TrackerCategory>)
    requires DistinctTitles(groups) && MakeTracker(obj).Success?
    ensures DistinctTitles(r)
    ensures NonEmptyGroups(groups) ==> NonEmptyGroups(r)
  {
    match CategoryTitle(obj)
    case None => groups
    case Some(title) => AddToGroup(groups, title, MakeTracker(obj).value)
  }

  /** The titles after filing are the titles before plus the object's own, if it has one. */
  lemma FileTrackerTitles(groups: seq<TrackerCategory>, obj: TrackerCoreData, s: string)
    requires DistinctTitles(groups) && MakeTracker(obj).Success?
    ensures HasTitle(FileTracker(groups, obj), s) <==> HasTitle(groups, s) || CategoryTitle(obj) == Some(s)
  {
    if CategoryTitle(obj).Some? {
      AddToGroupTitles(groups, CategoryTitle(obj).value, MakeTracker(obj).value, s);
    }
  }

  /** Filing changes an old group only by appending the object's tracker when the titles agree;
      a new group is the object's own title, which no old group had, holding just its tracker. */
  lemma FileTrackerGroup(groups: seq<TrackerCategory>, obj: TrackerCoreData, g: int)
    requires DistinctTitles(groups) && MakeTracker(obj).Success?
    requires 0 <= g < |FileTracker(groups, obj)|
    ensures var r := FileTracker(groups, obj);
      var t := MakeTracker(obj).value;
      (g < |groups| ==>
        r[g].title == groups[g].title &&
        r[g].trackers == groups[g].trackers + (if CategoryTitle(obj) == Some(groups[g].title) then [t] else [])) &&
      (g >= |groups| ==>
        !HasTitle(groups, r[g].title) && CategoryTitle(obj) == Some(r[g].title) && r[g].trackers == [t])
  {
  }

  /** The decoded trackers of the objects whose category is titled `title`, in input order. */
  function TrackersTitled(objs: seq<TrackerCoreData>, title: string): seq<Tracker>
    decreases |objs|
  {
    if |objs| == 0 then []
    else
      var last := objs[|objs| - 1];
      TrackersTitled(objs[..|objs| - 1], title) +
      (if CategoryTitle(last) == Some(title) && MakeTracker(last).Success? then [MakeTracker(last).value] else [])
  }

  /** Adding to a group keeps every title and adds the one added under. */
  lemma AddToGroupTitles(groups: seq<TrackerCategory>, title: string, t: Tracker, s: string)
    requires DistinctTitles(groups)
    ensures HasTitle(AddToGroup(groups, title, t), s) <==> HasTitle(groups, s) || s == title
  {
    var r := AddToGroup(groups, title, t);
    if HasTitle(groups, s) {
      var g :| 0 <= g < |groups| && groups[g].title == s;
      assert r[g].title == s;
    }
    if HasTitle(r, s) && !HasTitle(groups, s) {
      var g :| 0 <= g < |r| && r[g].title == s;
      assert g == |groups|;
    }
  }

  /** One round of the loop keeps every title seen so far and adds the new object's. */
  lemma EveryTitleStep(init: seq<TrackerCoreData>, last: TrackerCoreData, before: seq<TrackerCategory>)
    requires DistinctTitles(before) && MakeTracker(last).Success?
    requires forall i :: 0 <= i < |init| && CategoryTitle(init[i]).Some? ==>
      HasTitle(before, CategoryTitle(init[i]).value)
    ensures var objs := init + [last];
      forall i :: 0 <= i < |objs| && CategoryTitle(objs[i]).Some? ==>
        HasTitle(FileTracker(before, last), CategoryTitle(objs[i]).value)
  {
    var objs := init + [last];
    forall i | 0 <= i < |objs| && CategoryTitle(objs[i]).Some?
      ensures HasTitle(FileTracker(before, last), CategoryTitle(objs[i]).value)
    {
      FileTrackerTitles(before, last, CategoryTitle(objs[i]).value);
      if i < |init| {
        assert objs[i] == init[i];
      }
    }
  }

  /** Every title some object carries has a group. */
  lemma {:induction false} EveryTitleHasGroup(objs: seq<TrackerCoreData>)
    requires MakeCategory(objs).Success?
    ensures forall i :: 0 <= i < |objs| && CategoryTitle(objs[i]).Some? ==>
      HasTitle(MakeCategory(objs).value, CategoryTitle(objs[i]).value)
    decreases |objs|
  {
    if |objs| > 0 {
      var init := objs[..|objs| - 1];
      var last := objs[|objs| - 1];
      EveryTitleHasGroup(init);
      var before := MakeCategory(init).value;
      assert MakeCategory(objs).value == FileTracker(before, last);
      EveryTitleStep(init, last, before);
      assert objs == init + [last];
    }
  }

  /** A title without a group has no trackers filed under it. */
  lemma {:induction false} UntitledHasNoTrackers(objs: seq<TrackerCoreData>, s: string)
    requires MakeCategory(objs).Success?
    requires !HasTitle(MakeCategory(objs).value, s)
    ensures TrackersTitled(objs, s) == []
    decreases |objs|
  {
    if |objs| > 0 {
      var init := objs[..|objs| - 1];
      var last := objs[|objs| - 1];
      var before := MakeCategory(init).value;
      assert MakeCategory(objs).value == FileTracker(before, last);
      FileTrackerTitles(before, last, s);
      UntitledHasNoTrackers(init, s);
    }
  }

  /** On success, every group holds exactly the trackers filed under its title, in input order;
      with `EveryTitleHasGroup`, each categorised tracker appears exactly once, in the group of
      its own title. */
  lemma {:induction false} MakeCategoryGroupsByTitle(objs: seq<TrackerCoreData>)
    requires MakeCategory(objs).Success?
    ensures forall g :: 0 <= g < |MakeCategory(objs).value| ==>
      MakeCategory(objs).value[g].trackers == TrackersTitled(objs, MakeCategory(objs).value[g].title)
    decreases |objs|
  {
    if |objs| > 0 {
      var init := objs[..|objs| - 1];
      var last := objs[|objs| - 1];
      MakeCategoryGroupsByTitle(init);
      var before := MakeCategory(init).value;
      var groups := MakeCategory(objs).value;
      assert groups == FileTracker(before, last);
      forall g | 0 <= g < |groups|
        ensures groups[g].trackers == TrackersTitled(objs, groups[g].title)
      {
        FileTrackerGroup(before, last, g);
        if g >= |before| {
          UntitledHasNoTrackers(init, groups[g].title);
        }
      }
    }
  }

  // ---------------------------------------------------------------------------------------------
  // trackers and isEmpty

  /** `trackers`: the grouped trackers of the fetched objects, or none when nothing was fetched
      or `makeCategory` threw. On success each group holds exactly the trackers filed under its
      title, and every title an object carries has a group. */
  function Trackers(fetched: Option<seq<TrackerCoreData>>): (r: seq<TrackerCategory>)
    ensures fetched.None? ==> r == []
    ensures fetched.Some? && !AllDecode(fetched.value) ==> r == []
    ensures fetched.Some? && AllDecode(fetched.value) ==> r == MakeCategory(fetched.value).value
    ensures DistinctTitles(r) && NonEmptyGroups(r)
    ensures fetched.Some? && AllDecode(fetched.value) ==>
      (forall g :: 0 <= g < |r| ==> r[g].trackers == TrackersTitled(fetched.value, r[g].title)) &&
      (forall i :: 0 <= i < |fetched.value| && CategoryTitle(fetched.value[i]).Some? ==>
        HasTitle(r, CategoryTitle(fetched.value[i]).value))
  {
    match fetched
    case None => []
    case Some(objs) =>
      match MakeCategory(objs)
      case Failure(_) => []
      case Success(groups) =>
        MakeCategoryGroupsByTitle(objs);
        EveryTitleHasGroup(objs);
        groups
  }

  /** `isEmpty`: nothing fetched, or an empty fetch; an empty store shows no trackers. */
  predicate IsEmpty(fetched: Option<seq<TrackerCoreData>>): (b: bool)
    ensures b ==> Trackers(fetched) == []
  {
    fetched.None? || |fetched.value| == 0
  }

  /** The converse fails: a store whose only tracker has no category is not empty, yet shows no
      trackers. */
  lemma UncategorisedStoreShowsNothing(t: Tracker)
    ensures var fetched := Some([UpdateTracker(TrackerCoreData(None, None, None, None, None, None), t)]);
      !IsEmpty(fetched) && Trackers(fetched) == []
  {
    var obj := UpdateTracker(TrackerCoreData(None, None, None, None, None, None), t);
    var objs := [obj];
    assert objs[..0] == [];
    UpdateThenMakeRoundTrip(TrackerCoreData(None, None, None, None, None, None), t);
    assert CategoryTitle(obj).None?;
    assert MakeCategory(objs) == Success([]);
  }

  // ---------------------------------------------------------------------------------------------
  // The change accumulator (NSFetchedResultsControllerDelegate)

  /** `TrackerStoreUpdate.Move`. */
  datatype Move = Move(oldIndex: int, newIndex: int)

  /** `TrackerStoreUpdate`: what the store hands its delegate after a batch of changes. */
  datatype TrackerStoreUpdate = TrackerStoreUpdate(
    insertedIndexes: set<int>,
    deletedIndexes: set<int>,
    updatedIndexes: set<int>,
    movedIndexes: set<Move>)

  /** The store's four optional index collections: absent outside a batch, collecting inside. */
  datatype Accumulator = Accumulator(
    inserted: Option<set<int>>,
    deleted: Option<set<int>>,
    updated: Option<set<int>>,
    moved: Option<set<Move>>)

  /** The state outside a batch. */
  const Idle: Accumulator := Accumulator(None, None, None, None)

  /** `NSFetchedResultsChangeType`. */
  datatype ChangeType = Insert | Delete | Update | MoveRow

  /** One reported change: its type, the old row (`indexPath`) and the new row (`newIndexPath`). */
  datatype Change = Change(kind: ChangeType, indexPath: Option<int>, newIndexPath: Option<int>)

  /** The change carries the rows its type needs; otherwise the source stops with `fatalError`. */
  predicate WellFormed(c: Change) {
    match c.kind
    case Insert => c.newIndexPath.Some?
    case Delete => c.indexPath.Some?
    case Update => c.indexPath.Some?
    case MoveRow => c.indexPath.Some? && c.newIndexPath.Some?
  }

  /** `controllerWillChangeContent`: all four collections start empty. */
  function WillChangeContent(acc: Accumulator): (r: Accumulator)
    ensures r.inserted == Some({}) && r.deleted == Some({}) && r.updated == Some({}) && r.moved == Some({})
  {
    Accumulator(Some({}), Some({}), Some({}), Some({}))
  }

  /** `insertedIndexes?.insert(i)` and the like: no effect on an absent collection. */
  function InsertInto<T>(s: Option<set<T>>, x: T): Option<set<T>> {
    match s
    case Some(items) => Some(items + {x})
    case None => None
  }

  /** `controller(_:didChange:at:for:newIndexPath:)`: a change adds to exactly the one collection
      of its type — the new row for an insert, the old row for a delete or update, the pair for a
      move — and leaves the other three alone. `None` is the `fatalError` of a change missing a
      row it needs. */
  function DidChange(acc: Accumulator, c: Change): (r: Option<Accumulator>)
    ensures r.None? <==> !WellFormed(c)
    ensures r.Some? ==>
      r.value.inserted == (if c.kind == Insert then InsertInto(acc.inserted, c.newIndexPath.value) else acc.inserted) &&
      r.value.deleted == (if c.kind == Delete then InsertInto(acc.deleted, c.indexPath.value) else acc.deleted) &&
      r.value.updated == (if c.kind == Update then InsertInto(acc.updated, c.indexPath.value) else acc.updated) &&
      r.value.moved ==
        (if c.kind == MoveRow then InsertInto(acc.moved, Move(c.indexPath.value, c.newIndexPath.value)) else acc.moved)
  {
    match c.kind
    case Insert =>
      if c.newIndexPath.None? then None
      else Some(acc.(inserted := InsertInto(acc.inserted, c.newIndexPath.value)))
    case Delete =>
      if c.indexPath.None? then None
      else Some(acc.(deleted := InsertInto(acc.deleted, c.indexPath.value)))
    case Update =>
      if c.indexPath.None? then None
      else Some(acc.(updated := InsertInto(acc.updated, c.indexPath.value)))
    case MoveRow =>
      if c.indexPath.None? || c.newIndexPath.None? then None
      else Some(acc.(moved := InsertInto(acc.moved, Move(c.indexPath.value, c.newIndexPath.value))))
  }

  /** What `controllerDidChangeContent` leaves behind: the update handed to the delegate (none
      without a delegate) and the store's collections afterwards. */
  datatype Notification = Notification(update: Option<TrackerStoreUpdate>, after: Accumulator)

  /** `controllerDidChangeContent`: with a delegate, hands it the four collections (force-unwrapped:
      `None` is the crash when a batch never started) and then clears them; without one, the
      arguments are never evaluated and the collections are just cleared. */
  function DidChangeContent(acc: Accumulator, hasDelegate: bool): (r: Option<Notification>)
    ensures r.Some? ==> r.value.after == Idle
    ensures r.None? <==> hasDelegate && (acc.inserted.None? || acc.deleted.None? || acc.updated.None? || acc.moved.None?)
    ensures r.Some? && hasDelegate ==>
      r.value.update == Some(TrackerStoreUpdate(acc.inserted.value, acc.deleted.value, acc.updated.value, acc.moved.value))
    ensures r.Some? && !hasDelegate ==> r.value.update.None?
  {
    if !hasDelegate then Some(Notification(None, Idle))
    else if acc.inserted.None? || acc.deleted.None? || acc.updated.None? || acc.moved.None? then None
    else Some(Notification(
      Some(TrackerStoreUpdate(acc.inserted.value, acc.deleted.value, acc.updated.value, acc.moved.value)),
      Idle))
  }

  /** The changes of a batch, one after the other; `None` once one of them traps. */
  function DidChangeAll(acc: Accumulator, changes: seq<Change>): Option<Accumulator>
    decreases |changes|
  {
    if |changes| == 0 then Some(acc)
    else
      match DidChange(acc, changes[0])
      case None => None
      case Some(next) => DidChangeAll(next, changes[1..])
  }

  /** The new rows of the inserts among `changes`. */
  function InsertedRows(changes: seq<Change>): set<int> {
    if |changes| == 0 then {}
    else
      var c := changes[0];
      (if c.kind == Insert && c.newIndexPath.Some? then {c.newIndexPath.value} else {}) + InsertedRows(changes[1..])
  }

  /** The old rows of the deletes among `changes`. */
  function DeletedRows(changes: seq<Change>): set<int> {
    if |changes| == 0 then {}
    else
      var c := changes[0];
      (if c.kind == Delete && c.indexPath.Some? then {c.indexPath.value} else {}) + DeletedRows(changes[1..])
  }

  /** The old rows of the updates among `changes`. */
  function UpdatedRows(changes: seq<Change>): set<int> {
    if |changes| == 0 then {}
    else
      var c := changes[0];
      (if c.kind == Update && c.indexPath.Some? then {c.indexPath.value} else {}) + UpdatedRows(changes[1..])
  }

  /** The (old, new) pairs of the moves among `changes`. */
  function MovedRows(changes: seq<Change>): set<Move> {
    if |changes| == 0 then {}
    else
      var c := changes[0];
      (if c.kind == MoveRow && c.indexPath.Some? && c.newIndexPath.Some?
       then {Move(c.indexPath.value, c.newIndexPath.value)} else {})
      + MovedRows(changes[1..])
  }

  /** Inside a batch, well-formed changes add their rows to what was collected so far. */
  lemma {:induction false} CollectChanges(acc: Accumulator, changes: seq<Change>)
    requires acc.inserted.Some? && acc.deleted.Some? && acc.updated.Some? && acc.moved.Some?
    requires forall i :: 0 <= i < |changes| ==> WellFormed(changes[i])
    ensures DidChangeAll(acc, changes) == Some(Accumulator(
      Some(acc.inserted.value + InsertedRows(changes)),
      Some(acc.deleted.value + DeletedRows(changes)),
      Some(acc.updated.value + UpdatedRows(changes)),
      Some(acc.moved.value + MovedRows(changes))))
    decreases |changes|
  {
    if |changes| > 0 {
      var c := changes[0];
      assert WellFormed(c);
      assert forall i :: 0 <= i < |changes| - 1 ==> changes[1..][i] == changes[i + 1];
      var rest := changes[1..];
      var next := DidChange(acc, c).value;
      CollectChanges(next, rest);
      assert DidChangeAll(acc, changes) == DidChangeAll(next, rest);
      assert InsertedRows(changes) == (if c.kind == Insert then {c.newIndexPath.value} else {}) + InsertedRows(rest);
      assert DeletedRows(changes) == (if c.kind == Delete then {c.indexPath.value} else {}) + DeletedRows(rest);
      assert UpdatedRows(changes) == (if c.kind == Update then {c.indexPath.value} else {}) + UpdatedRows(rest);
      assert MovedRows(changes) ==
        (if c.kind == MoveRow then {Move(c.indexPath.value, c.newIndexPath.value)} else {}) + MovedRows(rest);
      assert next.inserted.value + InsertedRows(rest) == acc.inserted.value + InsertedRows(changes);
      assert next.deleted.value + DeletedRows(rest) == acc.deleted.value + DeletedRows(changes);
      assert next.updated.value + UpdatedRows(rest) == acc.updated.value + UpdatedRows(changes);
      assert next.moved.value + MovedRows(rest) == acc.moved.value + MovedRows(changes);
    } else {
      assert DidChangeAll(acc, changes) == Some(acc);
      assert InsertedRows(changes) == {} && DeletedRows(changes) == {};
      assert UpdatedRows(changes) == {} && MovedRows(changes) == {};
      assert acc.inserted.value + {} == acc.inserted.value;
      assert acc.deleted.value + {} == acc.deleted.value;
      assert acc.updated.value + {} == acc.updated.value;
      assert acc.moved.value + {} == acc.moved.value;
    }
  }

  /** A whole batch — will change, well-formed changes, did change — hands the delegate exactly the
      inserted, deleted, updated and moved rows of the batch and leaves the store idle. */
  lemma BatchReportsItsChanges(acc: Accumulator, changes: seq<Change>)
    requires forall i :: 0 <= i < |changes| ==> WellFormed(changes[i])
    ensures var collected := DidChangeAll(WillChangeContent(acc), changes);
      collected.Some? &&
      DidChangeContent(collected.value, true) == Some(Notification(
        Some(TrackerStoreUpdate(InsertedRows(changes), DeletedRows(changes), UpdatedRows(changes), MovedRows(changes))),
        Idle))
  {
    CollectChanges(WillChangeContent(acc), changes);
    assert {} + InsertedRows(changes) == InsertedRows(changes);
    assert {} + DeletedRows(changes) == DeletedRows(changes);
    assert {} + UpdatedRows(changes) == UpdatedRows(changes);
    assert {} + MovedRows(changes) == MovedRows(changes);
  }

  /** Outside a batch, well-formed changes are dropped. */
  lemma {:induction false} IdleIgnoresChanges(changes: seq<Change>)
    requires forall i :: 0 <= i < |changes| ==> WellFormed(changes[i])
    ensures DidChangeAll(Idle, changes) == Some(Idle)
    decreases |changes|
  {
    if |changes| > 0 {
      assert forall i :: 0 <= i < |changes| - 1 ==> changes[1..][i] == changes[i + 1];
      IdleIgnoresChanges(changes[1..]);
    }
  }
}

=== FILE: trackers_view.dfy ===
/** The state kept by the trackers screen (`TrackersViewController`): the full category list,
    the categories currently visible after the date or search filter, the completion ledger,
    and the selected date. */
module TrackersView {
  import opened Common
  import opened TrackerModel
  import opened AsciiText

  /** All trackers of `cats`, category after category. */
  function Flatten(cats: seq<TrackerCategory>): seq<Tracker> {
    if |cats| == 0 then [] else cats[0].trackers + Flatten(cats[1..])
  }

  /** Tracker `t` is listed under a category titled `title`. */
  ghost predicate ListedUnder(cats: seq<TrackerCategory>, title: string, t: Tracker) {
    exists i :: 0 <= i < |cats| && cats[i].title == title && t in cats[i].trackers
  }

  // ---------------------------------------------------------------------------------------------
  // The two filters share one shape: keep the accepted trackers of every category and drop the
  // categories left empty (`compactMap` over `filter`).

  /** Keeps the trackers accepted by `keep`, drops categories left with none, and preserves the
      order of trackers. */
  function FilterCategories(cats: seq<TrackerCategory>, keep: Tracker -> bool): (r: seq<TrackerCategory>)
    ensures |r| <= |cats|
    ensures forall i :: 0 <= i < |r| ==> |r[i].trackers| > 0
    ensures Flatten(r) == Filter(Flatten(cats), keep)
  {
    if |cats| == 0 then []
    else
      var kept := Filter(cats[0].trackers, keep);
      var rest := FilterCategories(cats[1..], keep);
      FilterConcat(cats[0].trackers, Flatten(cats[1..]), keep);
      if |kept| == 0 then rest
      else
        var r := [TrackerCategory(cats[0].title, kept)] + rest;
        assert r[1..] == rest;
        r
  }

  /** Every category of `cats` cut down to the trackers `keep` accepts, empty ones included. */
  function TrimAll(cats: seq<TrackerCategory>, keep: Tracker -> bool): (r: seq<TrackerCategory>)
    ensures |r| == |cats|
    ensures forall j :: 0 <= j < |cats| ==>
      r[j].title == cats[j].title && r[j].trackers == Filter(cats[j].trackers, keep)
  {
    if |cats| == 0 then []
    else
      assert forall j :: 0 < j < |cats| ==> cats[j] == cats[1..][j - 1];
      [TrackerCategory(cats[0].title, Filter(cats[0].trackers, keep))] + TrimAll(cats[1..], keep)
  }

  /** The surviving categories are input categories, each with its own title and cut down to its
      accepted trackers, in the order of the input. */
  lemma {:induction false} FilterCategoriesTrimsInOrder(cats: seq<TrackerCategory>, keep: Tracker -> bool)
    ensures IsSubsequence(FilterCategories(cats, keep), TrimAll(cats, keep))
  {
    if |cats| > 0 {
      var r := FilterCategories(cats, keep);
      var kept := Filter(cats[0].trackers, keep);
      var rest := FilterCategories(cats[1..], keep);
      var all := TrimAll(cats, keep);
      FilterCategoriesTrimsInOrder(cats[1..], keep);
      assert all[1..] == TrimAll(cats[1..], keep);
      if |kept| > 0 {
        assert r == [TrackerCategory(cats[0].title, kept)] + rest;
        assert r[1..] == rest;
      }
    }
  }

  /** Every category keeps at least one tracker under `keep`. */
  predicate EachKeepsSome(cats: seq<TrackerCategory>, keep: Tracker -> bool) {
    forall j :: 0 <= j < |cats| ==> |Filter(cats[j].trackers, keep)| > 0
  }

  /** `EachKeepsSome` of a non-empty list: its head keeps some, and so does every later one. */
  lemma EachKeepsSomeStep(cats: seq<TrackerCategory>, keep: Tracker -> bool)
    requires |cats| > 0
    ensures EachKeepsSome(cats, keep) <==> |Filter(cats[0].trackers, keep)| > 0 && EachKeepsSome(cats[1..], keep)
  {
    assert forall j :: 0 < j < |cats| ==> cats[j] == cats[1..][j - 1];
  }

  /** No category is dropped exactly when each one has an accepted tracker. */
  lemma {:induction false} FilterCategoriesDropsOnlyEmpty(cats: seq<TrackerCategory>, keep: Tracker -> bool)
    ensures |FilterCategories(cats, keep)| == |cats| <==> EachKeepsSome(cats, keep)
  {
    if |cats| > 0 {
      var kept := Filter(cats[0].trackers, keep);
      var rest := FilterCategories(cats[1..], keep);
      FilterCategoriesDropsOnlyEmpty(cats[1..], keep);
      EachKeepsSomeStep(cats, keep);
      assert |FilterCategories(cats, keep)| == (if |kept| > 0 then 1 else 0) + |rest|;
    }
  }

  /** Listed under a title in a non-empty list: in its first category, or further on. */
  lemma ListedUnderStep(cats: seq<TrackerCategory>, title: string, t: Tracker)
    requires |cats| > 0
    ensures ListedUnder(cats, title, t) <==>
      (cats[0].title == title && t in cats[0].trackers) || ListedUnder(cats[1..], title, t)
  {
    if ListedUnder(cats, title, t) {
      var i :| 0 <= i < |cats| && cats[i].title == title && t in cats[i].trackers;
      if i > 0 {
        assert cats[1..][i - 1] == cats[i];
      }
    }
    if ListedUnder(cats[1..], title, t) {
      var i :| 0 <= i < |cats| - 1 && cats[1..][i].title == title && t in cats[1..][i].trackers;
      assert cats[i + 1] == cats[1..][i];
    }
  }

  /** A tracker sits under a title in the filtered list iff it sat under that title before and
      the filter accepts it. */
  lemma {:induction false} FilterCategoriesListing(cats: seq<TrackerCategory>, keep: Tracker -> bool, title: string, t: Tracker)
    ensures ListedUnder(FilterCategories(cats, keep), title, t) <==> keep(t) && ListedUnder(cats, title, t)
  {
    if |cats| > 0 {
      var r := FilterCategories(cats, keep);
      var rest := FilterCategories(cats[1..], keep);
      var kept := Filter(cats[0].trackers, keep);
      FilterCategoriesListing(cats[1..], keep, title, t);
      FilterMembers(cats[0].trackers, keep, t);
      ListedUnderStep(cats, title, t);
      if |kept| > 0 {
        assert r == [TrackerCategory(cats[0].title, kept)] + rest;
        assert r[1..] == rest;
        ListedUnderStep(r, title, t);
      }
    }
  }

  /** Two filters that agree on every tracker filter alike. */
  lemma {:induction false} FilterCategoriesCongruent(cats: seq<TrackerCategory>, p: Tracker -> bool, q: Tracker -> bool)
    requires forall t :: p(t) <==> q(t)
    ensures FilterCategories(cats, p) == FilterCategories(cats, q)
  {
    if |cats| > 0 {
      FilterCongruent(cats[0].trackers, p, q);
      FilterCategoriesCongruent(cats[1..], p, q);
    }
  }

  // ---------------------------------------------------------------------------------------------
  // filterRelevantTrackers and the filtering part of updateSearchResults

  /** Accepted by the date filter: the day's name is among the tracker's scheduled day names. */
  predicate ScheduledOnDay(dayName: string, t: Tracker) {
    dayName in GetDays(t)
  }

  /** The date filter's acceptance test for the weekday `dayName`. */
  function ScheduledOn(dayName: string): Tracker -> bool {
    t => ScheduledOnDay(dayName, t)
  }

  /** The filtering of `filterRelevantTrackers`: trackers scheduled on the weekday `dayName`. */
  function TrackersScheduledOn(cats: seq<TrackerCategory>, dayName: string): (r: seq<TrackerCategory>)
    ensures forall i :: 0 <= i < |r| ==> |r[i].trackers| > 0
    ensures forall t :: t in Flatten(r) <==> t in Flatten(cats) && dayName in GetDays(t)
  {
    var r := FilterCategories(cats, ScheduledOn(dayName));
    forall t
      ensures t in Flatten(r) <==> t in Flatten(cats) && dayName in GetDays(t)
    {
      FilterMembers(Flatten(cats), ScheduledOn(dayName), t);
    }
    r
  }

  /** On an in-week day `d`, the date filter keeps exactly the trackers whose schedule holds `d`,
      in their original order. */
  lemma ScheduledOnWeekday(cats: seq<TrackerCategory>, d: int)
    requires InWeek(d)
    ensures Flatten(TrackersScheduledOn(cats, WeekdayNames[d])) ==
      Filter(Flatten(cats), (t: Tracker) => d in t.schedule)
  {
    forall t: Tracker
      ensures ScheduledOnDay(WeekdayNames[d], t) <==> d in t.schedule
    {
      DayNamedIffScheduled(t.schedule, d);
    }
    FilterCategoriesCongruent(cats, ScheduledOn(WeekdayNames[d]), (t: Tracker) => d in t.schedule);
  }

  /** Accepted by the search: the lowercased name starts with the lowercased query. */
  predicate NameMatches(lower: string -> string, query: string, t: Tracker) {
    lower(query) <= lower(t.name)
  }

  /** The search's acceptance test for search text `query`. */
  function MatchesQuery(lower: string -> string, query: string): Tracker -> bool {
    t => NameMatches(lower, query, t)
  }

  /** The filtering of `updateSearchResults` for search text `query`. */
  function TrackersMatching(cats: seq<TrackerCategory>, query: string, lower: string -> string): (r: seq<TrackerCategory>)
    ensures forall i :: 0 <= i < |r| ==> |r[i].trackers| > 0
    ensures forall t :: t in Flatten(r) <==> t in Flatten(cats) && lower(query) <= lower(t.name)
  {
    var r := FilterCategories(cats, MatchesQuery(lower, query));
    forall t
      ensures t in Flatten(r) <==> t in Flatten(cats) && lower(query) <= lower(t.name)
    {
      FilterMembers(Flatten(cats), MatchesQuery(lower, query), t);
    }
    r
  }

  /** With an idempotent lowercasing, searching for a query and for its lowercase form give the
      same result: the search ignores case. */
  lemma SearchIgnoresQueryCase(cats: seq<TrackerCategory>, query: string, lower: string -> string)
    requires forall s :: lower(lower(s)) == lower(s)
    ensures TrackersMatching(cats, query, lower) == TrackersMatching(cats, lower(query), lower)
  {
    FilterCategoriesCongruent(cats, MatchesQuery(lower, query), MatchesQuery(lower, lower(query)));
  }

  /** An empty query matches every tracker (every string starts with the empty string), so only
      the categories that were already empty disappear. */
  lemma EmptyQueryKeepsAllTrackers(cats: seq<TrackerCategory>, lower: string -> string)
    requires lower("") == ""
    ensures Flatten(TrackersMatching(cats, "", lower)) == Flatten(cats)
  {
  }

  /** The query "mo" finds "Morning Run" and "morning walk" but not "Gym"; the category left
      without a match is dropped. */
  lemma SearchExample(a: Uuid, b: Uuid, c: Uuid)
    ensures var run := Tracker(a, "Morning Run", "", "", [0]);
      var walk := Tracker(b, "morning walk", "", "", [1]);
      var gym := Tracker(c, "Gym", "", "", [2]);
      TrackersMatching([TrackerCategory("Sport", [run, walk]), TrackerCategory("Gym", [gym])], "mo", AsciiLower)
        == [TrackerCategory("Sport", [run, walk])]
  {
    var run := Tracker(a, "Morning Run", "", "", [0]);
    var walk := Tracker(b, "morning walk", "", "", [1]);
    var gym := Tracker(c, "Gym", "", "", [2]);
    var keep := MatchesQuery(AsciiLower, "mo");
    AsciiText.MoLowersToItself();
    assert keep(run) by {
      AsciiText.MorningRunLowered();
      assert NameMatches(AsciiLower, "mo", run);
    }
    assert keep(walk) by {
      AsciiText.MorningWalkLowered();
      assert NameMatches(AsciiLower, "mo", walk);
    }
    assert !keep(gym) by {
      AsciiText.GymLowered();
      assert !NameMatches(AsciiLower, "mo", gym);
    }
    TwoCategoriesOneMatching(run, walk, gym, keep);
  }

  /** The shape of the search example for any filter accepting exactly the first two trackers. */
  lemma TwoCategoriesOneMatching(run: Tracker, walk: Tracker, gym: Tracker, keep: Tracker -> bool)
    requires keep(run) && keep(walk) && !keep(gym)
    ensures FilterCategories([TrackerCategory("Sport", [run, walk]), TrackerCategory("Gym", [gym])], keep)
      == [TrackerCategory("Sport", [run, walk])]
  {
    var cats := [TrackerCategory("Sport", [run, walk]), TrackerCategory("Gym", [gym])];
    assert Filter([run, walk], keep) == [run, walk];
    assert Filter([gym], keep) == [] by {
      assert [gym][1..] == [];
    }
    assert cats[1..][1..] == [];
    assert FilterCategories(cats[1..], keep) == [];
  }

  // ---------------------------------------------------------------------------------------------
  // The screen's state and its operations

  /** `trackersCategories`, `visibleTrackers`, `completedTrackers` and `currentDate`. */
  datatype ViewState = ViewState(
    categories: seq<TrackerCategory>,
    visible: seq<TrackerCategory>,
    completed: seq<TrackerRecord>,
    currentDate: Instant)

  /** What the screen shows is always drawn from the full list, in order. */
  ghost predicate VisibleDrawnFromCategories(v: ViewState) {
    IsSubsequence(Flatten(v.visible), Flatten(v.categories))
  }

  /** Assigning `trackersCategories`: its `didSet` shows the full list again, unfiltered. */
  function SetCategories(v: ViewState, cats: seq<TrackerCategory>): (r: ViewState)
    ensures r.categories == cats && r.visible == cats
    ensures r.completed == v.completed && r.currentDate == v.currentDate
    ensures VisibleDrawnFromCategories(r)
  {
    SubsequenceReflexive(Flatten(cats));
    v.(categories := cats, visible := cats)
  }

  /** Assigning `currentDate`: its `didSet` runs `filterRelevantTrackers`, which shows the trackers
      scheduled on the new date's weekday. */
  function SetCurrentDate(v: ViewState, date: Instant, cal: Calendar): (r: ViewState)
    ensures r.currentDate == date && r.categories == v.categories && r.completed == v.completed
    ensures Flatten(r.visible) == Filter(Flatten(v.categories), ScheduledOn(cal.weekdayName(date)))
    ensures forall i :: 0 <= i < |r.visible| ==> |r.visible[i].trackers| > 0
    ensures VisibleDrawnFromCategories(r)
  {
    v.(currentDate := date, visible := TrackersScheduledOn(v.categories, cal.weekdayName(date)))
  }

  /** `updateSearchResults`: without search text nothing changes; otherwise the screen shows the
      trackers of the full list whose lowercased name starts with the lowercased text. */
  function UpdateSearchResults(v: ViewState, text: Option<string>, lower: string -> string): (r: ViewState)
    ensures text.None? ==> r == v
    ensures r.categories == v.categories && r.completed == v.completed && r.currentDate == v.currentDate
    ensures text.Some? ==>
      Flatten(r.visible) == Filter(Flatten(v.categories), MatchesQuery(lower, text.value)) &&
      forall i :: 0 <= i < |r.visible| ==> |r.visible[i].trackers| > 0
    ensures VisibleDrawnFromCategories(v) ==> VisibleDrawnFromCategories(r)
  {
    match text
    case None => v
    case Some(query) => v.(visible := TrackersMatching(v.categories, query, lower))
  }

  /** The record `t` completed on the day of `date`. */
  predicate CompletesOn(cal: Calendar, rec: TrackerRecord, id: Uuid, date: Instant) {
    rec.recordID == id && SameDay(cal, rec.date, date)
  }

  /** The records `removeCompletedTracker` keeps: all but those of tracker `id` on the day of
      `date`. */
  function KeptUnlessCompletesOn(cal: Calendar, id: Uuid, date: Instant): TrackerRecord -> bool {
    rec => !CompletesOn(cal, rec, id, date)
  }

  /** `addCompletedTracker`: appends one record for `t` at the current date, without looking for
      an existing one; earlier records stay as they were. */
  function AddCompletedTracker(v: ViewState, t: Tracker): (r: ViewState)
    ensures |r.completed| == |v.completed| + 1
    ensures r.completed[..|v.completed|] == v.completed
    ensures r.completed[|v.completed|] == TrackerRecord(t.id, v.currentDate)
    ensures r.categories == v.categories && r.visible == v.visible && r.currentDate == v.currentDate
  {
    v.(completed := v.completed + [TrackerRecord(t.id, v.currentDate)])
  }

  /** `removeCompletedTracker`: removes every record of `t` on the current date's day and keeps
      every copy of all other records, in order; with no such record it changes nothing. */
  function RemoveCompletedTracker(v: ViewState, t: Tracker, cal: Calendar): (r: ViewState)
    ensures forall i :: 0 <= i < |r.completed| ==> !CompletesOn(cal, r.completed[i], t.id, v.currentDate)
    ensures forall rec :: rec in v.completed && !CompletesOn(cal, rec, t.id, v.currentDate) ==> rec in r.completed
    ensures IsSubsequence(r.completed, v.completed)
    ensures forall rec ::
      Count(r.completed, rec) == if CompletesOn(cal, rec, t.id, v.currentDate) then 0 else Count(v.completed, rec)
    ensures (forall i :: 0 <= i < |v.completed| ==> !CompletesOn(cal, v.completed[i], t.id, v.currentDate)) ==>
      r == v
    ensures r.categories == v.categories && r.visible == v.visible && r.currentDate == v.currentDate
  {
    var keep := KeptUnlessCompletesOn(cal, t.id, v.currentDate);
    forall rec | rec in v.completed && keep(rec)
      ensures rec in Filter(v.completed, keep)
    {
      FilterMembers(v.completed, keep, rec);
    }
    v.(completed := Filter(v.completed, keep))
  }

  /** Completing and then un-completing a tracker on the same date leaves no record of it for
      that day; when it had none before, the ledger is back to what it was. */
  lemma AddThenRemove(v: ViewState, t: Tracker, cal: Calendar)
    ensures var r := RemoveCompletedTracker(AddCompletedTracker(v, t), t, cal);
      (forall i :: 0 <= i < |r.completed| ==> !CompletesOn(cal, r.completed[i], t.id, v.currentDate)) &&
      ((forall i :: 0 <= i < |v.completed| ==> !CompletesOn(cal, v.completed[i], t.id, v.currentDate)) ==>
        r == v)
  {
    var keep := KeptUnlessCompletesOn(cal, t.id, v.currentDate);
    var added := v.completed + [TrackerRecord(t.id, v.currentDate)];
    assert AddCompletedTracker(v, t).completed == added;
    FilterConcat(v.completed, [TrackerRecord(t.id, v.currentDate)], keep);
    assert Filter([TrackerRecord(t.id, v.currentDate)], keep) == [];
  }

  /** Every operation keeps the visible trackers drawn, in order, from the full list. */
  lemma OperationsKeepVisibleDrawn(v: ViewState, t: Tracker, cal: Calendar, date: Instant, text: Option<string>, lower: string -> string)
    requires VisibleDrawnFromCategories(v)
    ensures VisibleDrawnFromCategories(SetCurrentDate(v, date, cal))
    ensures VisibleDrawnFromCategories(UpdateSearchResults(v, text, lower))
    ensures VisibleDrawnFromCategories(AddCompletedTracker(v, t))
    ensures VisibleDrawnFromCategories(RemoveCompletedTracker(v, t, cal))
  {
  }

  /** A screen whose visible trackers are drawn from the full list shows no tracker missing from
      the full list. */
  lemma VisibleTrackersAreCategorised(v: ViewState)
    requires VisibleDrawnFromCategories(v)
    ensures forall t :: t in Flatten(v.visible) ==> t in Flatten(v.categories)
  {
    SubsequenceMembers(Flatten(v.visible), Flatten(v.categories));
  }
}
